=== FILE: README.md ===
# TOFT quiz app — a Dafny model of its quiz logic

The app is a small browser quiz. A visitor enters a display name, scans
the QR code of one of four quizzes of five multiple-choice questions each, answers
them one at a time and sees a score out of five with a coloured grade band.
The result is stored as a row of a hosted `quiz_results` table. A leaderboard
groups every stored row by display name, adds up each name's points and
ranks the names by total. Identity (a random user id), the display name and
per-quiz completion flags live in the browser's `localStorage`.

This project models that logic as pure Dafny functions over immutable data
and proves what the pages promise about it:

- `QuizData` — the static catalog of `quizData.ts`, with every German text,
  answer option and answer index as written. Its shape is proved: four entries,
  each keyed by its own id, five questions of four options each, and every
  correct index naming an option.
- `QuizHelpers` — the `quizzes` list, which is never rendered but is the
  lookup list behind `getQuizById`, itself `Array.prototype.find`. The list
  and the catalog hold the same ids.
- `Scoring` — the `reduce` that scores an attempt, skipping the holes of a
  sparse answer array. It also covers the per-question check/cross marks of
  the results screen and the 80 / 60 percent grade bands.
- `QuizSession` — the question-by-question page as a state machine driven by
  the events select, next and insert-settled. It includes the submission that
  writes the result record and sets the completion flag.
- `Storage` — `localStorage` as a map from key to string: `getUserId`, the
  name, and the completion flags.
- `Leaderboard` — filtering by quiz, grouping into an insertion-ordered map
  (as a JavaScript `Map` iterates), the stable sort by descending total, the
  average, and the rank badges.
- `NameSetup` — `String.prototype.trim` over the WhiteSpace and
  LineTerminator code points of ECMA-262, `.length` in UTF-16 code units, and
  the two error messages.
- `QuizList` — QR-code dispatch and the list of past results, whose colour
  is computed out of a fixed five.
- `App` — the view machine: startup, name set, quiz selection, back, and
  leaderboard.

Numbers are unbounded integers. The source's numbers are doubles, but every
value involved is a small integer count, so no rounding or overflow can occur
in the integer parts. The percentage of the grade band is computed as an
exact `real`, and the band's contract is stated over integers.

A leaderboard fetch that reports an error or returns no data returns early
without calling `setLeaderboard` (src/pages/Leaderboard.tsx:40-49), so the
previous list stays on screen (`Leaderboard.LoadLeaderboard`).

## Model

| member | source | states |
|---|---|---|
| QuizData.CatalogIsWellFormed | src/data/quizData.ts:1-143 | the catalog has exactly the keys general-knowledge, logic, creativity and sports; each entry carries its own key as id and has five questions of four options, each with a correct index among its options |
| QuizData.GeneralKnowledgeAnswerKey | src/data/quizData.ts:15-46 | the general-knowledge quiz's correct indices are 1, 2, 2, 1, 2 in question order |
| QuizHelpers.FindById | src/lib/quizHelpers.ts:47-49 | `find` answers exactly when some listed quiz has the id; the answer has that id, is in the list and is the first such quiz |
| QuizHelpers.FindUnique | src/lib/quizHelpers.ts:47-49 | when ids are distinct, looking up a listed quiz's id returns that very quiz |
| QuizHelpers.QuizzesMatchCatalog | src/lib/quizHelpers.ts:12-45 | the lookup list has no repeated id, its ids are exactly the catalog's keys, and every card's title and tag equal its catalog entry's |
| QuizHelpers.GetQuizById | src/lib/quizHelpers.ts:47-49 | a card is found exactly when some listed card has the id, and it is a listed card with that id |
| QuizHelpers.GetQuizByIdMatchesCatalog | src/lib/quizHelpers.ts:47-49 | `getQuizById` finds a card exactly for the catalog's keys, and the card carries the requested id |
| QuizHelpers.ListedIffInCatalog | src/lib/quizHelpers.ts:12-45 | an id is on the lookup list exactly when the catalog has it |
| Scoring.ReduceScore | src/pages/Quiz.tsx:50-52 | the reduce from a position adds at most one point per remaining slot and never subtracts |
| Scoring.Score | src/pages/Quiz.tsx:78-82 | the score is between 0 and the number of answer slots, which never exceeds the number of questions |
| Scoring.ResultMarks | src/pages/Quiz.tsx:108-110 | one mark per question, true exactly when the answer in that slot, read as `undefined` past the end, equals the correct index |
| Scoring.ReduceAddsMarks | src/pages/Quiz.tsx:50-52 | the reduce from a position adds the number of true marks between that position and the end of the answers |
| Scoring.UnansweredAddNothing | src/pages/Quiz.tsx:108-110 | questions past the answered prefix are never marked correct |
| Scoring.CountTrueIsCardinality | src/pages/Quiz.tsx:108-110 | counting true marks equals the size of the set of their positions |
| Scoring.MarkedCorrectEqualsScore | src/pages/Quiz.tsx:78-110 | the number of check marks on the results screen equals the score shown above them |
| Scoring.ScoreCountsCorrectPositions | src/pages/Quiz.tsx:50-52 | the score is the number of positions answered with the correct index, and each of those positions holds an answer |
| Scoring.CountedAnswersAreOptions | src/pages/Quiz.tsx:50-52 | over valid questions, a counted answer is always one of the question's options |
| Scoring.PercentageThreshold | src/pages/Quiz.tsx:86 | the percentage reaches c exactly when 100 times the score reaches c times the question count |
| Scoring.GradeBand | src/pages/Quiz.tsx:92-96 | green exactly at 80 percent or more, yellow exactly from 60 to under 80 percent, red exactly under 60 percent |
| Scoring.GradeBandMonotone | src/pages/Quiz.tsx:92-96 | a higher score never gets a worse band |
| Scoring.GeneralKnowledgeScenario | src/pages/Quiz.tsx:84-98 | general knowledge answered with its key scores 5 and is green; answered with option 0 throughout it scores 0 and is red |
| QuizSession.SetSlot | src/pages/Quiz.tsx:33-37 | writing a slot of the copied array sets that slot, pads with holes, and leaves every other slot as it was |
| QuizSession.SelectAnswerAsWritten | src/pages/Quiz.tsx:33-37 | as written, a click records the option in the current slot before and during submission, and nothing else changes |
| QuizSession.SelectAnswer | src/pages/Quiz.tsx:33-37 | corrected: a click records the option only while answering, and once submitted it changes nothing |
| QuizSession.HandleNext | src/pages/Quiz.tsx:39-52 | before the last question, next advances by one; on the last it keeps the index and answers and starts submitting with the score of those answers, captured before the insert is awaited |
| QuizSession.FinishSubmit | src/pages/Quiz.tsx:72-75 | the `finally` turns submitting into the results screen carrying the submitted score, and otherwise does nothing |
| QuizSession.NextEnabled | src/pages/Quiz.tsx:208-210 | Next can be pressed exactly while answering with the current question answered: not during submission and not on the results screen |
| QuizSession.Step | src/pages/Quiz.tsx:33-76 | corrected: a click while answering records the option in the current slot and leaves every other slot, the index and the phase as they were; after submission a click does nothing; a disabled Next does nothing; an enabled Next advances by one before the last question and on the last submits the score of the answers; the insert settling keeps the index and answers |
| QuizSession.StepAsWritten | src/pages/Quiz.tsx:33-76 | as written: the same, except that a click before the results screen, also during submission, records the option in the current slot; the index and answers never outgrow the quiz |
| QuizSession.StepKeepsReachable | src/pages/Quiz.tsx:33-76 | corrected: every event keeps the page consistent: the index stays on a question, submission only happens with all questions answered, and the carried score is the score of the answers on screen |
| QuizSession.StepAsWrittenKeepsConsistent | src/pages/Quiz.tsx:33-76 | as written: every event keeps the index on a question, the array within the quiz, earlier questions answered, and all questions answered once submitted; the score clause is not kept |
| QuizSession.Run | src/pages/Quiz.tsx:33-76 | corrected: any event sequence from a reachable page ends on a reachable page, score clause included |
| QuizSession.RunAsWritten | src/pages/Quiz.tsx:33-76 | as written: any event sequence from a consistent page ends on a consistent page |
| QuizSession.AsWrittenSubmitsOnlyWhenAnswered | src/pages/Quiz.tsx:39-45 | as written, from a fresh page, whatever the user does, the index stays on a question and submission needs every question answered |
| QuizSession.ResultsShowSubmittedScore | src/pages/Quiz.tsx:84-85 | corrected: from a fresh page, whatever the user does, the results screen shows exactly the score that was submitted, and submission needs every question answered |
| QuizSession.KeyPlayReachesLastQuestion | src/pages/Quiz.tsx:33-45 | as written, a fresh page of five questions that is answered 1, 2, 2, 1, 2 with Next pressed in between stands on the last question with exactly those answers and nothing submitted |
| QuizSession.AnswerThenNext | src/pages/Quiz.tsx:33-45 | as written, on a five-question quiz with every earlier question answered, a click appends the option to the answers, and Next after it moves to the following question when there is one |
| QuizSession.PlayAnswersAll | src/pages/Quiz.tsx:33-45 | as written, selecting an option and pressing Next for each remaining question, with no Next after the last one, records each option in its slot and stops on the last question |
| QuizSession.SwitchWhileSubmitting | src/pages/Quiz.tsx:39-85 | as written, from the last of five answered questions: Next submits the score of the answers, a click on option 0 during the insert overwrites the last answer, and the settled insert shows the submitted score |
| QuizSession.AsWrittenShowsOtherScore | src/pages/Quiz.tsx:180-183 | as written, a fresh page of any quiz whose key is 1, 2, 2, 1, 2 (the general-knowledge quiz), answered with that key, submits 5; a click on option 0 before the insert settles leaves answers that score 4 on the results screen |
| QuizSession.Submit | src/pages/Quiz.tsx:47-76 | the record carries the user name, quiz id, tag and captured score, plus a stored non-empty user id; after a successful insert the store is the id step followed by marking the quiz completed, after an error or exception only the id step; no key other than the id and this quiz's flag ever changes |
| QuizSession.OpenQuiz | src/pages/Quiz.tsx:16-31 | a quiz page has a quiz exactly for the catalog's keys, and it is that catalog entry, with the requested id and five questions; otherwise it shows the not-found card |
| Storage.GetUserId | src/lib/storage.ts:1-10 | a non-empty stored id is returned without touching the store; otherwise the fresh id is stored and returned; no other key changes |
| Storage.GetUserName | src/lib/storage.ts:12-14 | the name is present exactly when its key is stored, and is the stored string |
| Storage.SetUserName | src/lib/storage.ts:16-18 | the name reads back as stored, and no other key changes |
| Storage.IsQuizCompleted | src/lib/storage.ts:20-23 | a quiz reads as completed exactly when its flag is stored with the value "true" |
| Storage.MarkQuizCompleted | src/lib/storage.ts:25-27 | the quiz reads as completed afterwards, only its flag changes, and the name is untouched |
| Storage.GetUserIdIsStable | src/lib/storage.ts:1-10 | a second call returns the first call's id and store, whatever fresh id it is offered |
| Storage.NameRoundTrip | src/lib/storage.ts:12-18 | the name reads back as stored, and no other key changes |
| Storage.CompletedKeyIsNotIdentity | src/lib/storage.ts:20-27 | no completion key collides with the id key or the name key |
| Storage.CompletedKeyInjective | src/lib/storage.ts:20-27 | different quizzes have different completion keys |
| Storage.MarkThenCompleted | src/lib/storage.ts:20-27 | a quiz marked completed reads as completed |
| Storage.CompletedOnlyForTrue | src/lib/storage.ts:20-23 | a flag counts exactly when its stored string is "true" |
| Storage.MarkChangesOnlyItsFlag | src/lib/storage.ts:25-27 | marking one quiz leaves every other quiz's flag, the name and the id unchanged |
| Storage.SetNameKeepsFlags | src/lib/storage.ts:16-18 | storing the name changes no completion flag and not the id |
| Leaderboard.RowsOfQuiz | src/pages/Leaderboard.tsx:34-36 | the kept rows are exactly the rows of the chosen quiz |
| Leaderboard.FilterRows | src/pages/Leaderboard.tsx:34-36 | "all" keeps every row in order; any other filter keeps exactly that quiz's rows, each as often as it occurs |
| Leaderboard.RowsOfQuizCounts | src/pages/Leaderboard.tsx:34-36 | the filtered rows hold each row of the chosen quiz exactly as often as the input does, and no row of any other quiz |
| Leaderboard.RowsOfQuizOfConcat | src/pages/Leaderboard.tsx:34-36 | filtering keeps the rows' order: the filter of two row lists joined is the two filters joined |
| Leaderboard.IndexOfName | src/pages/Leaderboard.tsx:54 | the map lookup finds an entry of the name, or there is none |
| Leaderboard.Upsert | src/pages/Leaderboard.tsx:53-59 | one `forEach` step adds at most one entry, leaves every other name's entry as it was, and adds the row's score and one attempt to the sums |
| Leaderboard.UpsertSummarises | src/pages/Leaderboard.tsx:53-59 | one `forEach` step keeps the map an exact summary: one entry per name in first-appearance order, with that name's total and count |
| Leaderboard.Group | src/pages/Leaderboard.tsx:51-59 | the map holds each name once, in first-appearance order, with the sum of that name's scores and the number of its rows |
| Leaderboard.GroupConserves | src/pages/Leaderboard.tsx:51-59 | grouping neither creates nor loses points or attempts |
| Leaderboard.SortByTotal | src/pages/Leaderboard.tsx:68 | the ranking has one line per group |
| Leaderboard.SortSortsAndPermutes | src/pages/Leaderboard.tsx:68 | the ranking is ordered by descending total and is a permutation of the groups |
| Leaderboard.LastNameIsNew | src/pages/Leaderboard.tsx:53-59 | with distinct names, the last group's name is new to the groups before it |
| Leaderboard.SortIsStable | src/pages/Leaderboard.tsx:68 | entries with equal totals keep their relative order |
| Leaderboard.SortKeepsSums | src/pages/Leaderboard.tsx:68 | sorting keeps the sum of totals and of counts |
| Leaderboard.SortKeepsNames | src/pages/Leaderboard.tsx:68 | sorting keeps the names distinct and the same set of names |
| Leaderboard.Aggregate | src/pages/Leaderboard.tsx:34-68 | the board is ranked by total, lists each name among the kept rows exactly once, gives each name its own total and attempt count, and accounts for every kept point and row |
| Leaderboard.AggregateTieOrder | src/pages/Leaderboard.tsx:61-68 | names with equal totals appear in the order they first occur among the kept rows |
| Leaderboard.OtherQuizRowDropped | src/pages/Leaderboard.tsx:34-36 | under a quiz filter, removing a row of another quiz from any position leaves the filtered rows unchanged |
| Leaderboard.OtherQuizRowsIgnored | src/pages/Leaderboard.tsx:34-36 | under a quiz filter, a row of another quiz at any position does not change the board |
| Leaderboard.Average | src/pages/Leaderboard.tsx:66 | the average times the count gives back the total |
| Leaderboard.LoadLeaderboard | src/pages/Leaderboard.tsx:38-72 | a fetch that reports an error, returns no data or throws keeps the previous board; an empty array of rows empties it; otherwise the board is ranked, its names are exactly the names of the kept rows, and it counts every kept row |
| Leaderboard.LoadLeaderboardAsWritten | src/pages/Leaderboard.tsx:26-76 | as the file stands, every load, whatever the table holds, leaves the list exactly as a failed fetch does: unchanged |
| Leaderboard.AsWrittenLeaderboardStaysEmpty | src/pages/Leaderboard.tsx:1-4 | as the file stands, the board stays empty whatever the table holds, while with the client imported one stored row already gives a line |
| Leaderboard.RankBadgeAt | src/pages/Leaderboard.tsx:78-83 | index 0 gets the trophy, 1 the medal, 2 the award icon, and every later index shows the number index + 1 |
| Leaderboard.RankBadgesDistinct | src/pages/Leaderboard.tsx:149-157 | different lines get different badges, and a shown rank number is never below 4 |
| Leaderboard.FilterButtonsAllShown | src/pages/Leaderboard.tsx:118-120 | each of the four filter ids finds its quiz, so no filter button is skipped |
| NameSetup.SkipLeading | src/pages/NameSetup.tsx:18 | the trimmed name starts after a run of trimmable characters, at a character that is not trimmable |
| NameSetup.SkipTrailing | src/pages/NameSetup.tsx:18 | the trimmed name ends before a run of trimmable characters, after a character that is not trimmable |
| NameSetup.Trim | src/pages/NameSetup.tsx:18 | the trimmed name neither starts nor ends with a trimmable character |
| NameSetup.TrimIsSlice | src/pages/NameSetup.tsx:18 | trim returns a contiguous slice of the input, and everything before and after it is trimmable |
| NameSetup.TrimIdempotent | src/pages/NameSetup.tsx:28 | trimming a trimmed name changes nothing |
| NameSetup.Utf16LengthBounds | src/pages/NameSetup.tsx:23 | `.length` counts between one and two code units per character |
| NameSetup.ValidateName | src/pages/NameSetup.tsx:15-29 | empty after trim gives the first message; a non-empty name shorter than 2 code units gives the second; otherwise the trimmed name is handed on, at least 2 units long and without surrounding blanks |
| NameSetup.AcceptedNameIsStable | src/pages/NameSetup.tsx:15-29 | an accepted name is accepted again unchanged and is never empty |
| NameSetup.OneCharacterNames | src/pages/NameSetup.tsx:23-26 | one visible character in the Basic Multilingual Plane, however padded, is too short; one outside it counts as two units and passes |
| NameSetup.Edit | src/pages/NameSetup.tsx:47-50 | typing replaces the value and clears the error |
| NameSetup.Submit | src/pages/NameSetup.tsx:15-29 | the name is handed on exactly when it validates, and it is the trimmed input; otherwise the value stays and the matching message is shown |
| QuizList.HandleQRScan | src/pages/QuizList.tsx:46-55 | the scanner closes; the quiz opens exactly for a catalog id, forwarded unchanged; anything else raises the alert |
| QuizList.FixedBand | src/pages/QuizList.tsx:102-126 | out of a fixed five: green from 4 points, yellow at exactly 3, red at 2 or fewer |
| QuizList.CardFor | src/pages/QuizList.tsx:98-99 | a row renders a card exactly when its quiz is listed, with that quiz's id and the row's score |
| QuizList.ListResults | src/pages/QuizList.tsx:97-99 | never more cards than result rows |
| QuizList.LoadCompletedQuizzes | src/pages/QuizList.tsx:31-44 | an error or missing data keeps the rows already held, and fetched rows replace them |
| QuizList.CardsAfterLoad | src/pages/QuizList.tsx:24-44 | after the one load from the initial empty list, a failed fetch shows no card and a successful one shows exactly the fetched rows' cards |
| QuizList.ListResultsOfConcat | src/pages/QuizList.tsx:97-99 | cards follow the rows' order: the cards of two row lists joined are the two card lists joined |
| QuizList.ListResultsOfOne | src/pages/QuizList.tsx:97-99 | a single row renders exactly its own card if its quiz is listed, and nothing otherwise; with `QuizList.ListResultsOfConcat`, the list is the in-order filter-map of `CardFor` |
| QuizList.CardsComeFromRows | src/pages/QuizList.tsx:97-99 | every card is the card `CardFor` makes of some result row |
| QuizList.ListedCardsAreListed | src/pages/QuizList.tsx:97-126 | every card belongs to a listed quiz and is coloured out of five |
| QuizList.ListResultsKeepsListedRows | src/pages/QuizList.tsx:97-99 | a row of an unlisted quiz contributes no card, and a row of a listed quiz contributes a card with its score |
| QuizList.ListedCardsAreKnown | src/pages/QuizList.tsx:97-126 | every card on the page belongs to a catalog quiz and is coloured out of five |
| QuizList.ListResultsKeepsKnownRows | src/pages/QuizList.tsx:97-102 | on the page, a row of an unknown quiz shows nothing and a row of a catalog quiz shows its score |
| App.Initial | src/App.tsx:11-13 | the app starts on the name form with no name and no selection |
| App.Startup | src/App.tsx:15-23 | after startup a non-empty user id is stored, an existing non-empty id leaves the store untouched, and no other key changes; a stored non-empty name opens the quiz list with that name, otherwise the view and name stay |
| App.HandleNameSet | src/App.tsx:25-29 | the name is stored and kept, no other key of the store changes, and the quiz list opens |
| App.HandleSelectQuiz | src/App.tsx:31-34 | the quiz page opens for the chosen id; the name and the store are untouched |
| App.HandleBackToList | src/App.tsx:36-39 | back on the list, with the selection cleared |
| App.HandleShowLeaderboard | src/App.tsx:41-43 | the leaderboard opens, and the name, the selected quiz and the store are unchanged |
| App.HandleBackFromLeaderboard | src/App.tsx:45-47 | the quiz list opens, and the name, the selected quiz and the store are unchanged |
| App.Render | src/App.tsx:49-73 | the name form, leaderboard and quiz pages appear exactly for their views, and the quiz and list pages get the current name and selection |
| App.LeaderboardRoundTrip | src/App.tsx:41-47 | opening the leaderboard from the list and going back restores the state exactly |
| App.AcceptedNameSurvivesRestart | src/App.tsx:15-29 | a name the form accepts is stored, and the next start skips the form and greets the user by that name |
| App.ScanOpensOnlyKnownQuizzes | src/pages/QuizList.tsx:46-55 | scanning a catalog id from the list shows that quiz's page, which plays that very catalog entry; any other code leaves the app state unchanged |

## Left out

- The hosted database client is outside the model. The insert's three outcomes (success, error object, thrown exception) are a parameter of `QuizSession.Submit`. The fetched rows, or their absence, are a parameter of `Leaderboard.LoadLeaderboard` and of `QuizList.LoadCompletedQuizzes`.
- The backend filters the leaderboard query with `.eq('quiz_id', filter)`. The model applies the equivalent filter client-side, in `Leaderboard.FilterRows`.
- The backend also selects the past-results query by user id and orders it by `created_at` (src/pages/QuizList.tsx:31-44). Both are backend query semantics. The list is modelled in the order the rows arrive.
- Superseded leaderboard fetches can resolve out of order when the filter changes quickly. Asynchronous interleaving is not modelled; each load is applied as one step.
- `crypto.randomUUID` is the `freshId` parameter, required non-empty as a UUID always is.
- `localStorage` is a map. Quota errors and private-mode failures are not modelled.
- `quizData[quizId]` is modelled as a map lookup. A JavaScript object would also answer inherited keys such as `constructor`; that prototype lookup is not modelled.
- The loading flags, `alert`, the date formatting, `toFixed(1)`, `Math.round` of the percentage, the progress bar and all styling are rendering. React's batching of state updates is also not modelled.
- QRScanner, MaterialButton, MaterialCard and MaterialInput are third-party or presentational components and are not part of this model. A scan arrives as the decoded string.
- Scoring.GradeBand: the percentage is an exact rational. The source's `(score / total) * 100` is a double, and its rounding is not modelled. For the catalog's five questions this does not change a band: 3/5 and 4/5 are not exact doubles, but the products (3/5) * 100 and (4/5) * 100 round to exactly 60 and 80, and the other scores land far from a boundary.
- QuizList.ListResults: its own contract only bounds the number of cards. That the cards are the rows' cards in the rows' order is stated by `QuizList.ListResultsOfConcat` and `QuizList.ListResultsOfOne`; what each card is and which row made it, by `QuizList.ListedCardsAreListed`, `QuizList.CardsComeFromRows` and `QuizList.ListResultsKeepsListedRows`. A richer contract on the recursive function itself made each of its proofs far more expensive.
- Leaderboard.RowsOfQuiz: its own contract states which rows are kept, not how often or in what order. Multiplicity is stated by `Leaderboard.RowsOfQuizCounts` and order by `Leaderboard.RowsOfQuizOfConcat`, because a multiset clause on the function made every proof that unfolds it far more expensive.
- Leaderboard.SortByTotal: its own contract states only that no line is added or lost. Order and permutation are stated by `Leaderboard.SortSortsAndPermutes`, stability by `Leaderboard.SortIsStable`, because those clauses on the recursive function made the proofs that unfold it exceed their resource budget.
- Scores are unbounded integers, and no double overflow is modelled. Sums of at most a few hundred scores of 0 to 5 stay exact in a double.

## Findings

| source | as written | input that shows it | evidently intended | confidence | as-written member | corrected member |
|---|---|---|---|---|---|---|
| src/pages/Quiz.tsx:180-183 | the option buttons call `handleSelectAnswer` while the insert is in flight, and the results screen recomputes the score from the current answers (line 85) rather than from the submitted one | answer general knowledge with 1, 2, 2, 1, 2; press "Quiz abschließen"; click option 0 before the insert returns: 5 is stored, 4/5 is shown | answers are frozen once submitted, so the results screen shows the stored score | not executed | QuizSession.AsWrittenShowsOtherScore | QuizSession.ResultsShowSubmittedScore |
| src/pages/Leaderboard.tsx:30 | `supabase` is used but never imported in this file (Quiz.tsx and QuizList.tsx import it from `../lib/supabase`), so building the query throws, the `catch` at line 71 logs it, and the board stays empty | any non-empty `quiz_results` table | the client is imported as in the other pages, and the board lists the grouped rows | not executed | Leaderboard.AsWrittenLeaderboardStaysEmpty | Leaderboard.LoadLeaderboard |

=== FILE: app.dfy ===
/** The top-level view machine (src/App.tsx): which page is shown, the user
    name in memory, the selected quiz, and the browser store beneath them. */
module App {
  import opened Wrappers
  import Storage
  import NameSetup
  import QuizList
  import QuizSession
  import QuizData

  datatype View = NameSetupView | QuizListView | QuizView | LeaderboardView

  datatype AppState = AppState(view: View, userName: string, selectedQuizId: string, store: Storage.Store)

  /** The state before the startup effect runs. */
  function Initial(store: Storage.Store): (s: AppState)
    ensures s.view == NameSetupView && s.userName == "" && s.selectedQuizId == ""
  {
    AppState(NameSetupView, "", "", store)
  }

  /** The startup effect: ensure a user id exists, then a stored non-empty
      name skips the name form. */
  function Startup(s: AppState, freshId: string): (r: AppState)
    requires freshId != ""
    ensures Storage.Get(r.store, Storage.UserIdKey).Some? && r.store[Storage.UserIdKey] != ""
    ensures Storage.SameExcept(r.store, s.store, Storage.UserIdKey)
    ensures Storage.Get(s.store, Storage.UserIdKey).Some? && s.store[Storage.UserIdKey] != "" ==> r.store == s.store
    ensures r.selectedQuizId == s.selectedQuizId
    ensures var stored := Storage.GetUserName(s.store);
            if stored.Some? && stored.value != "" then r.view == QuizListView && r.userName == stored.value
            else r.view == s.view && r.userName == s.userName
  {
    var (_, store) := Storage.GetUserId(s.store, freshId);
    match Storage.GetUserName(store)
    case Some(name) =>
      if name != "" then s.(view := QuizListView, userName := name, store := store)
      else s.(store := store)
    case None => s.(store := store)
  }

  /** `handleNameSet`: persist the name, keep it, go to the quiz list. */
  function HandleNameSet(s: AppState, name: string): (r: AppState)
    ensures r.view == QuizListView && r.userName == name
    ensures Storage.GetUserName(r.store) == Some(name)
    ensures Storage.SameExcept(r.store, s.store, Storage.UserNameKey)
    ensures r.selectedQuizId == s.selectedQuizId
  {
    s.(view := QuizListView, userName := name, store := Storage.SetUserName(s.store, name))
  }

  /** `handleSelectQuiz`. */
  function HandleSelectQuiz(s: AppState, quizId: string): (r: AppState)
    ensures r.view == QuizView && r.selectedQuizId == quizId
    ensures r.userName == s.userName && r.store == s.store
  {
    s.(view := QuizView, selectedQuizId := quizId)
  }

  /** `handleBackToList`: the selection is cleared. */
  function HandleBackToList(s: AppState): (r: AppState)
    ensures r.view == QuizListView && r.selectedQuizId == ""
    ensures r.userName == s.userName && r.store == s.store
  {
    s.(view := QuizListView, selectedQuizId := "")
  }

  /** `handleShowLeaderboard`: only the view changes. */
  function HandleShowLeaderboard(s: AppState): (r: AppState)
    ensures r.view == LeaderboardView
    ensures r.userName == s.userName && r.selectedQuizId == s.selectedQuizId && r.store == s.store
  {
    s.(view := LeaderboardView)
  }

  /** `handleBackFromLeaderboard`: back to the list, nothing else changes. */
  function HandleBackFromLeaderboard(s: AppState): (r: AppState)
    ensures r.view == QuizListView
    ensures r.userName == s.userName && r.selectedQuizId == s.selectedQuizId && r.store == s.store
  {
    s.(view := QuizListView)
  }

  /** The page rendered for a state. */
  datatype Page =
    | NameSetupPage
    | LeaderboardPage
    | QuizPage(quizId: string, userName: string)
    | QuizListPage(userName: string)

  /** The chain of `if`s in the render: name form, leaderboard, quiz, and
      otherwise the quiz list. */
  function Render(s: AppState): (p: Page)
    ensures p.NameSetupPage? <==> s.view == NameSetupView
    ensures p.LeaderboardPage? <==> s.view == LeaderboardView
    ensures p.QuizPage? <==> s.view == QuizView
    ensures p.QuizPage? ==> p.quizId == s.selectedQuizId && p.userName == s.userName
    ensures p.QuizListPage? ==> p.userName == s.userName
  {
    if s.view == NameSetupView then NameSetupPage
    else if s.view == LeaderboardView then LeaderboardPage
    else if s.view == QuizView then QuizPage(s.selectedQuizId, s.userName)
    else QuizListPage(s.userName)
  }

  /** Opening the leaderboard from the list and coming back restores the
      state exactly: name, selection and store are untouched. */
  lemma LeaderboardRoundTrip(s: AppState)
    requires s.view == QuizListView
    ensures HandleBackFromLeaderboard(HandleShowLeaderboard(s)) == s
  {
  }

  /** A name the form accepts is stored, and on the next start of the app it
      skips the name form and greets the user with that name. */
  lemma AcceptedNameSurvivesRestart(s: AppState, input: string, freshId: string)
    requires NameSetup.ValidateName(input).Ok?
    requires freshId != ""
    ensures var name := NameSetup.ValidateName(input).value;
            var after := HandleNameSet(s, name);
            var restarted := Startup(Initial(after.store), freshId);
            restarted.view == QuizListView && restarted.userName == name
  {
    var name := NameSetup.ValidateName(input).value;
    var after := HandleNameSet(s, name);
    NameSetup.AcceptedNameIsStable(input);
    var (_, store) := Storage.GetUserId(after.store, freshId);
    assert Storage.GetUserName(store) == Storage.GetUserName(after.store);
  }

  /** Scanning from the quiz list: a catalog id opens the page of that very
      catalog entry; any other code leaves the app on the list. */
  lemma ScanOpensOnlyKnownQuizzes(s: AppState, scanned: string)
    requires s.view == QuizListView
    ensures var outcome := QuizList.HandleQRScan(scanned);
            var r := match outcome.action
                     case SelectQuiz(id) => HandleSelectQuiz(s, id)
                     case InvalidCodeAlert => s;
            && (scanned in QuizData.Catalog ==>
                  Render(r) == QuizPage(scanned, s.userName)
                  && QuizSession.OpenQuiz(r.selectedQuizId) == Some(QuizData.Catalog[scanned]))
            && (scanned !in QuizData.Catalog ==> r == s)
  {
  }
}

=== FILE: leaderboard.dfy ===
/** The leaderboard (src/pages/Leaderboard.tsx): result rows optionally
    filtered by quiz, grouped by display name into a total and a count per
    name, ranked by total, and the icons of the first three ranks. */
module Leaderboard {
  import opened Wrappers
  import QuizHelpers

  /** The columns `user_name, score, quiz_id` of one `quiz_results` row. */
  datatype ResultRow = ResultRow(userName: string, score: int, quizId: string)

  /** One leaderboard line; the average is `total / count`. */
  datatype Entry = Entry(userName: string, total: int, count: nat)

  /** The filter value that selects every quiz. */
  const AllQuizzes: string := "all"

  /** The quiz ids offered as filter buttons, in order. */
  const FilterIds: seq<string> := ["general-knowledge", "logic", "creativity", "sports"]

  // ---------------------------------------------------------------------
  // Filtering

  /** The rows of one quiz, in their original order. */
  function RowsOfQuiz(rows: seq<ResultRow>, quizId: string): (r: seq<ResultRow>)
    ensures |r| <= |rows|
    ensures forall x :: x in r ==> x in rows && x.quizId == quizId
    ensures forall x :: x in rows && x.quizId == quizId ==> x in r
  {
    if |rows| == 0 then []
    else
      var last := rows[|rows| - 1];
      RowsOfQuiz(rows[..|rows| - 1], quizId) + (if last.quizId == quizId then [last] else [])
  }

  /** The filter keeps every row of the quiz as often as it occurs, and no
      other row. */
  lemma {:induction false} RowsOfQuizCounts(rows: seq<ResultRow>, quizId: string)
    ensures forall y :: multiset(RowsOfQuiz(rows, quizId))[y]
                        == if y.quizId == quizId then multiset(rows)[y] else 0
  {
    if |rows| > 0 {
      var last := rows[|rows| - 1];
      assert rows == rows[..|rows| - 1] + [last];
      RowsOfQuizCounts(rows[..|rows| - 1], quizId);
    }
  }

  /** Filtering a concatenation filters each part and keeps them in order. */
  lemma {:induction false} RowsOfQuizOfConcat(a: seq<ResultRow>, b: seq<ResultRow>, quizId: string)
    ensures RowsOfQuiz(a + b, quizId) == RowsOfQuiz(a, quizId) + RowsOfQuiz(b, quizId)
    decreases |b|
  {
    if |b| > 0 {
      var ab, b', last := a + b, b[..|b| - 1], b[|b| - 1];
      var tail := if last.quizId == quizId then [last] else [];
      assert ab[..|ab| - 1] == a + b' && ab[|ab| - 1] == last;
      assert RowsOfQuiz(ab, quizId) == RowsOfQuiz(a + b', quizId) + tail;
      assert RowsOfQuiz(b, quizId) == RowsOfQuiz(b', quizId) + tail;
      RowsOfQuizOfConcat(a, b', quizId);
      assert RowsOfQuiz(a, quizId) + RowsOfQuiz(b', quizId) + tail
          == RowsOfQuiz(a, quizId) + (RowsOfQuiz(b', quizId) + tail);
    } else {
      assert a + b == a;
    }
  }

  /** The query: every row for "all", otherwise `.eq('quiz_id', filter)`. */
  function FilterRows(rows: seq<ResultRow>, filter: string): (r: seq<ResultRow>)
    ensures filter == AllQuizzes ==> r == rows
    ensures filter != AllQuizzes ==>
              (forall x :: x in r <==> x in rows && x.quizId == filter)
    ensures filter != AllQuizzes ==>
              (forall y :: multiset(r)[y] == if y.quizId == filter then multiset(rows)[y] else 0)
  {
    if filter == AllQuizzes then rows
    else
      RowsOfQuizCounts(rows, filter);
      RowsOfQuiz(rows, filter)
  }

  // ---------------------------------------------------------------------
  // Reference definitions of a user's totals

  /** Sum of the scores of `name`'s rows. */
  function TotalFor(rows: seq<ResultRow>, name: string): int {
    if |rows| == 0 then 0
    else
      var last := rows[|rows| - 1];
      TotalFor(rows[..|rows| - 1], name) + (if last.userName == name then last.score else 0)
  }

  /** Number of `name`'s rows. */
  function CountFor(rows: seq<ResultRow>, name: string): nat {
    if |rows| == 0 then 0
    else
      var last := rows[|rows| - 1];
      CountFor(rows[..|rows| - 1], name) + (if last.userName == name then 1 else 0)
  }

  /** The display names occurring in the rows. */
  function UserNames(rows: seq<ResultRow>): set<string> {
    set x | x in rows :: x.userName
  }

  /** The display names in order of first appearance. */
  function FirstAppearances(rows: seq<ResultRow>): seq<string> {
    if |rows| == 0 then []
    else
      var before := FirstAppearances(rows[..|rows| - 1]);
      var name := rows[|rows| - 1].userName;
      if name in before then before else before + [name]
  }

  /** Sum of all scores. */
  function SumScores(rows: seq<ResultRow>): int {
    if |rows| == 0 then 0 else SumScores(rows[..|rows| - 1]) + rows[|rows| - 1].score
  }

  // ---------------------------------------------------------------------
  // Entry sequences

  /** The names of the entries, in order. */
  function NameSeq(m: seq<Entry>): (r: seq<string>)
  {
    seq(|m|, i requires 0 <= i < |m| => m[i].userName)
  }

  function EntryNames(m: seq<Entry>): set<string> {
    set e | e in m :: e.userName
  }

  predicate NamesDistinct(m: seq<Entry>) {
    forall i, j :: 0 <= i < j < |m| ==> m[i].userName != m[j].userName
  }

  function SumTotals(m: seq<Entry>): int {
    if |m| == 0 then 0 else m[0].total + SumTotals(m[1..])
  }

  function SumCounts(m: seq<Entry>): int {
    if |m| == 0 then 0 else m[0].count + SumCounts(m[1..])
  }

  /** The entries summarise `rows` exactly: one entry per name, in order of
      first appearance, each holding that name's total and count. */
  ghost predicate Summarises(m: seq<Entry>, rows: seq<ResultRow>) {
    && NamesDistinct(m)
    && NameSeq(m) == FirstAppearances(rows)
    && EntryNames(m) == UserNames(rows)
    && forall i :: 0 <= i < |m| ==>
         && m[i].total == TotalFor(rows, m[i].userName)
         && m[i].count == CountFor(rows, m[i].userName)
         && m[i].count >= 1
  }

  // ---------------------------------------------------------------------
  // Grouping: the `userScores` map, insertion-ordered like a JavaScript Map

  /** The position of `name` in the map, if present. */
  function IndexOfName(m: seq<Entry>, name: string): (r: Option<nat>)
    ensures r.Some? ==> r.value < |m| && m[r.value].userName == name
    ensures r.None? ==> forall i :: 0 <= i < |m| ==> m[i].userName != name
  {
    if |m| == 0 then None
    else if m[|m| - 1].userName == name then Some(|m| - 1)
    else IndexOfName(m[..|m| - 1], name)
  }

  /** One `forEach` step: add the row's score and one to its name's entry,
      starting from `{ total: 0, count: 0 }` for a new name. */
  function Upsert(m: seq<Entry>, row: ResultRow): (r: seq<Entry>)
    ensures |m| <= |r| <= |m| + 1
    ensures forall k :: 0 <= k < |m| && m[k].userName != row.userName ==> r[k] == m[k]
    ensures SumTotals(r) == SumTotals(m) + row.score
    ensures SumCounts(r) == SumCounts(m) + 1
  {
    match IndexOfName(m, row.userName)
    case Some(i) =>
      var e := Entry(row.userName, m[i].total + row.score, m[i].count + 1);
      SumsOfUpdate(m, i, e);
      m[i := e]
    case None =>
      var e := Entry(row.userName, row.score, 1);
      SumsOfConcat(m, [e]);
      assert [e][1..] == [];
      m + [e]
  }

  lemma TotalsOfAbsentName(rows: seq<ResultRow>, name: string)
    requires name !in UserNames(rows)
    ensures TotalFor(rows, name) == 0 && CountFor(rows, name) == 0
    ensures name !in FirstAppearances(rows)
  {
    if |rows| > 0 {
      var prefix := rows[..|rows| - 1];
      assert UserNames(prefix) <= UserNames(rows) by {
        forall n | n in UserNames(prefix) ensures n in UserNames(rows) {
          var x :| x in prefix && x.userName == n;
          assert x in rows;
        }
      }
      assert rows[|rows| - 1] in rows;
      TotalsOfAbsentName(prefix, name);
    }
  }

  lemma FirstAppearancesAreNames(rows: seq<ResultRow>, name: string)
    ensures name in FirstAppearances(rows) <==> name in UserNames(rows)
  {
    if |rows| > 0 {
      var prefix := rows[..|rows| - 1];
      var last := rows[|rows| - 1];
      FirstAppearancesAreNames(prefix, name);
      assert rows == prefix + [last];
      if name in UserNames(rows) && name != last.userName {
        var x :| x in rows && x.userName == name;
        assert x in prefix;
      }
      if name in UserNames(prefix) {
        var x :| x in prefix && x.userName == name;
        assert x in rows;
      }
    }
  }

  lemma UpsertSummarises(m: seq<Entry>, rows: seq<ResultRow>)
    requires |rows| > 0 && Summarises(m, rows[..|rows| - 1])
    ensures Summarises(Upsert(m, rows[|rows| - 1]), rows)
  {
    var prefix, last := rows[..|rows| - 1], rows[|rows| - 1];
    UpsertKeepsNames(m, prefix, last);
    UpsertKeepsTotals(m, prefix, last);
    assert prefix + [last] == rows;
  }

  /** One more row adds its score and one attempt to its own name only. */
  lemma TotalsOfSnoc(rows: seq<ResultRow>, row: ResultRow, name: string)
    ensures TotalFor(rows + [row], name) == TotalFor(rows, name) + (if row.userName == name then row.score else 0)
    ensures CountFor(rows + [row], name) == CountFor(rows, name) + (if row.userName == name then 1 else 0)
  {
    var all := rows + [row];
    assert all[..|all| - 1] == rows;
  }

  lemma UpsertKeepsNames(m: seq<Entry>, rows: seq<ResultRow>, row: ResultRow)
    requires NamesDistinct(m) && NameSeq(m) == FirstAppearances(rows) && EntryNames(m) == UserNames(rows)
    ensures var m' := Upsert(m, row);
      NamesDistinct(m') && NameSeq(m') == FirstAppearances(rows + [row]) && EntryNames(m') == UserNames(rows + [row])
  {
    var all := rows + [row];
    assert all[..|all| - 1] == rows;
    assert UserNames(all) == UserNames(rows) + {row.userName};
    FirstAppearancesAreNames(rows, row.userName);
    UpsertNameSeq(m, row);
    UpsertEntryNames(m, row);
  }

  /** The name sequence after one `forEach` step: unchanged for a known name,
      extended by a new one. */
  lemma UpsertNameSeq(m: seq<Entry>, row: ResultRow)
    ensures row.userName in EntryNames(m) ==> NameSeq(Upsert(m, row)) == NameSeq(m)
    ensures row.userName !in EntryNames(m) ==> NameSeq(Upsert(m, row)) == NameSeq(m) + [row.userName]
    ensures NamesDistinct(m) ==> NamesDistinct(Upsert(m, row))
  {
    var m' := Upsert(m, row);
    match IndexOfName(m, row.userName)
    case Some(i) =>
      assert m[i] in m;
      assert NameSeq(m') == NameSeq(m);
    case None =>
      assert row.userName !in EntryNames(m);
      assert NameSeq(m') == NameSeq(m) + [row.userName];
  }

  /** The set of names after one `forEach` step gains the row's name. */
  lemma UpsertEntryNames(m: seq<Entry>, row: ResultRow)
    ensures EntryNames(Upsert(m, row)) == EntryNames(m) + {row.userName}
  {
    match IndexOfName(m, row.userName)
    case Some(i) =>
      assert m[i] in m;
      UpdateKeepsEntryNames(m, i, Upsert(m, row)[i]);
    case None =>
      assert EntryNames(m + [Entry(row.userName, row.score, 1)]) == EntryNames(m) + {row.userName};
  }

  /** Replacing an entry by one of the same name keeps the set of names. */
  lemma UpdateKeepsEntryNames(m: seq<Entry>, i: nat, e: Entry)
    requires i < |m| && e.userName == m[i].userName
    ensures EntryNames(m[i := e]) == EntryNames(m)
  {
    var m' := m[i := e];
    assert m[i] in m && m'[i] in m';
    forall n | n in EntryNames(m) ensures n in EntryNames(m') {
      var k :| 0 <= k < |m| && m[k].userName == n;
      assert m'[k].userName == n;
    }
    forall n | n in EntryNames(m') ensures n in EntryNames(m) {
      var k :| 0 <= k < |m'| && m'[k].userName == n;
      assert m[k].userName == n;
    }
  }

  lemma UpsertKeepsTotals(m: seq<Entry>, rows: seq<ResultRow>, row: ResultRow)
    requires Summarises(m, rows)
    ensures var m' := Upsert(m, row);
      forall i :: 0 <= i < |m'| ==>
        && m'[i].total == TotalFor(rows + [row], m'[i].userName)
        && m'[i].count == CountFor(rows + [row], m'[i].userName)
        && m'[i].count >= 1
  {
    var m' := Upsert(m, row);
    forall i | 0 <= i < |m'|
      ensures m'[i].total == TotalFor(rows + [row], m'[i].userName)
      ensures m'[i].count == CountFor(rows + [row], m'[i].userName)
      ensures m'[i].count >= 1
    {
      TotalsOfSnoc(rows, row, m'[i].userName);
      if i == |m| {
        assert row.userName !in EntryNames(m);
        TotalsOfAbsentName(rows, row.userName);
      }
    }
  }

  /** The `forEach` over the rows, in order. */
  function Group(rows: seq<ResultRow>): (r: seq<Entry>)
    ensures Summarises(r, rows)
  {
    if |rows| == 0 then []
    else
      var prefix := rows[..|rows| - 1];
      var last := rows[|rows| - 1];
      var m := Group(prefix);
      UpsertSummarises(m, rows);
      Upsert(m, last)
  }

  // ---------------------------------------------------------------------
  // Conservation

  lemma {:induction false} SumsOfConcat(a: seq<Entry>, b: seq<Entry>)
    ensures SumTotals(a + b) == SumTotals(a) + SumTotals(b)
    ensures SumCounts(a + b) == SumCounts(a) + SumCounts(b)
  {
    if |a| == 0 {
      assert a + b == b;
    } else {
      assert (a + b)[0] == a[0];
      assert (a + b)[1..] == a[1..] + b;
      SumsOfConcat(a[1..], b);
    }
  }

  lemma SumsOfUpdate(m: seq<Entry>, i: nat, e: Entry)
    requires i < |m|
    ensures SumTotals(m[i := e]) == SumTotals(m) - m[i].total + e.total
    ensures SumCounts(m[i := e]) == SumCounts(m) - m[i].count + e.count
  {
    assert m == m[..i] + [m[i]] + m[i + 1..];
    assert m[i := e] == m[..i] + [e] + m[i + 1..];
    SumsOfConcat(m[..i] + [m[i]], m[i + 1..]);
    SumsOfConcat(m[..i], [m[i]]);
    SumsOfConcat(m[..i] + [e], m[i + 1..]);
    SumsOfConcat(m[..i], [e]);
  }


  /** Grouping neither creates nor loses points or attempts: the totals add
      up to the sum of the scores, the counts to the number of rows. */
  lemma {:induction false} GroupConserves(rows: seq<ResultRow>)
    ensures SumTotals(Group(rows)) == SumScores(rows)
    ensures SumCounts(Group(rows)) == |rows|
  {
    if |rows| > 0 {
      var prefix := rows[..|rows| - 1];
      var last := rows[|rows| - 1];
      var m := Group(prefix);
      assert SumTotals(m) == SumScores(prefix) && SumCounts(m) == |prefix| by {
        GroupConserves(prefix);
      }
      assert Group(rows) == Upsert(m, last);
    }
  }

  // ---------------------------------------------------------------------
  // Ranking: `sort((a, b) => b.total_score - a.total_score)`, a stable sort

  /** Totals never increase along the sequence. */
  ghost predicate SortedByTotal(m: seq<Entry>) {
    forall i, j :: 0 <= i < j < |m| ==> m[i].total >= m[j].total
  }

  /** Every total is at most `t`. */
  ghost predicate AllAtMost(m: seq<Entry>, t: int) {
    forall i :: 0 <= i < |m| ==> m[i].total <= t
  }

  /** The entries with total `t`, in order. */
  function WithTotal(m: seq<Entry>, t: int): seq<Entry> {
    if |m| == 0 then [] else (if m[0].total == t then [m[0]] else []) + WithTotal(m[1..], t)
  }

  /** Place `e` after every leading entry whose total is at least its own. */
  function InsertByTotal(e: Entry, m: seq<Entry>): (r: seq<Entry>)
    ensures |r| == |m| + 1
  {
    if |m| == 0 then [e]
    else if m[0].total >= e.total then [m[0]] + InsertByTotal(e, m[1..])
    else [e] + m
  }

  /** The stable sort by descending total: entries are inserted in their
      original order, each behind the ones of equal total. */
  function SortByTotal(m: seq<Entry>): (r: seq<Entry>)
    ensures |r| == |m|
  {
    if |m| == 0 then []
    else InsertByTotal(m[|m| - 1], SortByTotal(m[..|m| - 1]))
  }

  lemma SortedSplit(m: seq<Entry>)
    requires |m| > 0 && SortedByTotal(m)
    ensures SortedByTotal(m[1..]) && AllAtMost(m, m[0].total) && AllAtMost(m[1..], m[0].total)
  {
    assert forall i :: 0 <= i < |m[1..]| ==> m[1..][i] == m[i + 1];
  }

  lemma ConsSorted(x: Entry, m: seq<Entry>)
    requires SortedByTotal(m) && AllAtMost(m, x.total)
    ensures SortedByTotal([x] + m)
  {
    var r := [x] + m;
    forall i, j | 0 <= i < j < |r| ensures r[i].total >= r[j].total {
      assert r[j] == m[j - 1];
      if i > 0 { assert r[i] == m[i - 1]; }
    }
  }

  lemma {:induction false} InsertBounded(e: Entry, m: seq<Entry>, t: int)
    requires AllAtMost(m, t) && e.total <= t
    ensures AllAtMost(InsertByTotal(e, m), t)
  {
    if |m| > 0 && m[0].total >= e.total {
      assert AllAtMost(m[1..], t) by {
        assert forall i :: 0 <= i < |m[1..]| ==> m[1..][i] == m[i + 1];
      }
      InsertBounded(e, m[1..], t);
      var rest := InsertByTotal(e, m[1..]);
      assert forall i :: 1 <= i < |[m[0]] + rest| ==> ([m[0]] + rest)[i] == rest[i - 1];
    } else if |m| > 0 {
      assert forall i :: 1 <= i < |[e] + m| ==> ([e] + m)[i] == m[i - 1];
    }
  }

  /** Inserting into a sorted sequence keeps it sorted. */
  lemma {:induction false} InsertSorted(e: Entry, m: seq<Entry>)
    requires SortedByTotal(m)
    ensures SortedByTotal(InsertByTotal(e, m))
  {
    if |m| == 0 {
    } else if m[0].total >= e.total {
      SortedSplit(m);
      var rest := InsertByTotal(e, m[1..]);
      assert SortedByTotal(rest) by {
        InsertSorted(e, m[1..]);
      }
      assert AllAtMost(rest, m[0].total) by {
        InsertBounded(e, m[1..], m[0].total);
      }
      ConsSorted(m[0], rest);
    } else {
      SortedSplit(m);
      ConsSorted(e, m);
    }
  }

  /** Inserting adds exactly the one entry. */
  lemma {:induction false} InsertPermutes(e: Entry, m: seq<Entry>)
    ensures multiset(InsertByTotal(e, m)) == multiset(m) + multiset{e}
  {
    if |m| > 0 && m[0].total >= e.total {
      InsertPermutes(e, m[1..]);
      assert m == [m[0]] + m[1..];
    }
  }


  /** The leaderboard order: sorted, and a permutation of the groups. */
  lemma {:induction false} SortSortsAndPermutes(m: seq<Entry>)
    ensures SortedByTotal(SortByTotal(m))
    ensures multiset(SortByTotal(m)) == multiset(m)
  {
    if |m| > 0 {
      var prefix := m[..|m| - 1];
      var last := m[|m| - 1];
      var sorted := SortByTotal(prefix);
      assert SortByTotal(m) == InsertByTotal(last, sorted);
      assert SortedByTotal(sorted) && multiset(sorted) == multiset(prefix) by {
        SortSortsAndPermutes(prefix);
      }
      InsertSorted(last, sorted);
      InsertPermutes(last, sorted);
      assert multiset(m) == multiset(prefix) + multiset{last} by {
        assert m == prefix + [last];
      }
    }
  }

  /** Inserting adds the entry's total and count to the sums. */
  lemma {:induction false} InsertAddsToSums(e: Entry, m: seq<Entry>)
    ensures SumTotals(InsertByTotal(e, m)) == SumTotals(m) + e.total
    ensures SumCounts(InsertByTotal(e, m)) == SumCounts(m) + e.count
  {
    if |m| > 0 && m[0].total >= e.total {
      InsertAddsToSums(e, m[1..]);
      var rest := InsertByTotal(e, m[1..]);
      assert ([m[0]] + rest)[1..] == rest;
    } else if |m| > 0 {
      assert ([e] + m)[1..] == m;
    } else {
      assert [e][1..] == [];
    }
  }

  /** Sorting keeps the sum of the totals and the sum of the counts. */
  lemma {:induction false} SortKeepsSums(m: seq<Entry>)
    ensures SumTotals(SortByTotal(m)) == SumTotals(m)
    ensures SumCounts(SortByTotal(m)) == SumCounts(m)
  {
    if |m| > 0 {
      var prefix := m[..|m| - 1];
      var last := m[|m| - 1];
      var sorted := SortByTotal(prefix);
      assert SumTotals(sorted) == SumTotals(prefix) && SumCounts(sorted) == SumCounts(prefix) by {
        SortKeepsSums(prefix);
      }
      assert SumTotals(SortByTotal(m)) == SumTotals(sorted) + last.total
          && SumCounts(SortByTotal(m)) == SumCounts(sorted) + last.count by {
        InsertAddsToSums(last, sorted);
      }
      assert SumTotals(m) == SumTotals(prefix) + last.total
          && SumCounts(m) == SumCounts(prefix) + last.count by {
        assert m == prefix + [last];
        SumsOfConcat(prefix, [last]);
        assert [last][1..] == [];
      }
    }
  }

  lemma {:induction false} WithTotalOfConcat(a: seq<Entry>, b: seq<Entry>, t: int)
    ensures WithTotal(a + b, t) == WithTotal(a, t) + WithTotal(b, t)
  {
    if |a| == 0 {
      assert a + b == b;
    } else {
      var h := if a[0].total == t then [a[0]] else [];
      assert (a + b)[0] == a[0];
      assert (a + b)[1..] == a[1..] + b;
      WithTotalOfConcat(a[1..], b, t);
      assert WithTotal(a + b, t) == h + (WithTotal(a[1..], t) + WithTotal(b, t));
      assert WithTotal(a, t) == h + WithTotal(a[1..], t);
    }
  }

  lemma {:induction false} NoneWithLargerTotal(m: seq<Entry>, t: int)
    requires AllAtMost(m, t - 1)
    ensures WithTotal(m, t) == []
  {
    if |m| > 0 {
      assert AllAtMost(m[1..], t - 1) by {
        assert forall i :: 0 <= i < |m[1..]| ==> m[1..][i] == m[i + 1];
      }
      NoneWithLargerTotal(m[1..], t);
    }
  }

  /** Inserting into a sorted sequence goes behind every entry of equal total. */
  lemma {:induction false} InsertKeepsTies(e: Entry, m: seq<Entry>, t: int)
    requires SortedByTotal(m)
    ensures WithTotal(InsertByTotal(e, m), t)
            == WithTotal(m, t) + (if e.total == t then [e] else [])
  {
    if |m| == 0 {
      assert [e][1..] == [];
    } else if m[0].total >= e.total {
      var rest := InsertByTotal(e, m[1..]);
      assert WithTotal(rest, t) == WithTotal(m[1..], t) + (if e.total == t then [e] else []) by {
        SortedSplit(m);
        InsertKeepsTies(e, m[1..], t);
      }
      assert ([m[0]] + rest)[1..] == rest;
    } else {
      assert WithTotal(m, e.total) == [] by {
        SortedSplit(m);
        NoneWithLargerTotal(m, e.total);
      }
      assert ([e] + m)[1..] == m;
    }
  }

  /** Sorting keeps entries of equal total in their original order. */
  lemma {:induction false} SortIsStable(m: seq<Entry>, t: int)
    ensures WithTotal(SortByTotal(m), t) == WithTotal(m, t)
  {
    if |m| > 0 {
      var prefix := m[..|m| - 1];
      var last := m[|m| - 1];
      var sorted := SortByTotal(prefix);
      var tail := if last.total == t then [last] else [];
      assert WithTotal(sorted, t) == WithTotal(prefix, t) by {
        SortIsStable(prefix, t);
      }
      assert WithTotal(SortByTotal(m), t) == WithTotal(sorted, t) + tail by {
        SortSortsAndPermutes(prefix);
        InsertKeepsTies(last, sorted, t);
      }
      assert WithTotal(m, t) == WithTotal(prefix, t) + tail by {
        assert m == prefix + [last];
        WithTotalOfConcat(prefix, [last], t);
        assert [last][1..] == [];
      }
    }
  }

  /** Putting an entry in front of entries with other names keeps the names distinct. */
  lemma ConsKeepsNamesDistinct(x: Entry, m: seq<Entry>)
    requires NamesDistinct(m)
    requires x.userName !in EntryNames(m)
    ensures NamesDistinct([x] + m)
    ensures EntryNames([x] + m) == {x.userName} + EntryNames(m)
  {
    var r := [x] + m;
    forall i, j | 0 <= i < j < |r| ensures r[i].userName != r[j].userName {
      assert r[j] == m[j - 1];
      if i > 0 {
        assert r[i] == m[i - 1];
      } else {
        assert r[j] in m;
      }
    }
    assert forall y :: y in r <==> y == x || y in m;
  }

  /** The head's name is not among the tail's, and the names split accordingly. */
  lemma HeadNameUnique(m: seq<Entry>)
    requires |m| > 0 && NamesDistinct(m)
    ensures NamesDistinct(m[1..]) && m[0].userName !in EntryNames(m[1..])
    ensures EntryNames(m) == {m[0].userName} + EntryNames(m[1..])
  {
    var tail := m[1..];
    forall y | y in tail ensures y.userName != m[0].userName {
      var k :| 0 <= k < |tail| && tail[k] == y;
      assert m[k + 1] == y;
    }
    assert m == [m[0]] + tail;
    assert forall y :: y in m <==> y == m[0] || y in tail;
  }

  lemma {:induction false} InsertKeepsNames(e: Entry, m: seq<Entry>)
    requires NamesDistinct(m)
    requires e.userName !in EntryNames(m)
    ensures NamesDistinct(InsertByTotal(e, m))
    ensures EntryNames(InsertByTotal(e, m)) == EntryNames(m) + {e.userName}
  {
    if |m| == 0 {
      assert EntryNames([e]) == {e.userName};
    } else if m[0].total >= e.total {
      var tail := m[1..];
      HeadNameUnique(m);
      var rest := InsertByTotal(e, tail);
      assert NamesDistinct(rest) && EntryNames(rest) == EntryNames(tail) + {e.userName} by {
        InsertKeepsNames(e, tail);
      }
      ConsKeepsNamesDistinct(m[0], rest);
    } else {
      ConsKeepsNamesDistinct(e, m);
    }
  }

  lemma {:induction false} SortKeepsNames(m: seq<Entry>)
    requires NamesDistinct(m)
    ensures NamesDistinct(SortByTotal(m))
    ensures EntryNames(SortByTotal(m)) == EntryNames(m)
  {
    if |m| > 0 {
      var prefix := m[..|m| - 1];
      var last := m[|m| - 1];
      var sorted := SortByTotal(prefix);
      LastNameIsNew(m);
      assert NamesDistinct(sorted) && EntryNames(sorted) == EntryNames(prefix) by {
        SortKeepsNames(prefix);
      }
      InsertKeepsNames(last, sorted);
    }
  }

  /** With distinct names, the last entry's name is not among the earlier
      ones. */
  lemma LastNameIsNew(m: seq<Entry>)
    requires |m| > 0 && NamesDistinct(m)
    ensures var prefix, last := m[..|m| - 1], m[|m| - 1];
            && NamesDistinct(prefix) && last.userName !in EntryNames(prefix)
            && EntryNames(m) == EntryNames(prefix) + {last.userName}
  {
    var prefix, last := m[..|m| - 1], m[|m| - 1];
    forall x | x in prefix ensures x.userName != last.userName {
      var k :| 0 <= k < |prefix| && prefix[k] == x;
      assert m[k] == x;
    }
    assert m == prefix + [last];
    assert forall y :: y in m <==> y in prefix || y == last;
  }

  // ---------------------------------------------------------------------
  // The leaderboard

  /** `loadLeaderboard` once the rows have arrived: filter, group, rank. */
  function Aggregate(rows: seq<ResultRow>, filter: string): (r: seq<Entry>)
    ensures SortedByTotal(r)
    ensures NamesDistinct(r)
    ensures EntryNames(r) == UserNames(FilterRows(rows, filter))
    ensures forall e :: e in r ==>
              && e.count >= 1
              && e.total == TotalFor(FilterRows(rows, filter), e.userName)
              && e.count == CountFor(FilterRows(rows, filter), e.userName)
    ensures SumTotals(r) == SumScores(FilterRows(rows, filter))
    ensures SumCounts(r) == |FilterRows(rows, filter)|
    ensures |rows| == 0 ==> r == []
  {
    var kept := FilterRows(rows, filter);
    var grouped := Group(kept);
    var r := SortByTotal(grouped);
    assert SumTotals(r) == SumScores(kept) && SumCounts(r) == |kept| by {
      GroupConserves(kept);
      SortKeepsSums(grouped);
    }
    assert NamesDistinct(r) && EntryNames(r) == UserNames(kept) by {
      SortKeepsNames(grouped);
    }
    SortSortsAndPermutes(grouped);
    assert forall e :: e in r ==> e in grouped by {
      forall e | e in r ensures e in grouped {
        assert e in multiset(r);
      }
    }
    r
  }

  /** Ties are listed in the order their names first appear among the kept rows. */
  lemma AggregateTieOrder(rows: seq<ResultRow>, filter: string, t: int)
    ensures WithTotal(Aggregate(rows, filter), t) == WithTotal(Group(FilterRows(rows, filter)), t)
    ensures NameSeq(Group(FilterRows(rows, filter))) == FirstAppearances(FilterRows(rows, filter))
  {
    SortIsStable(Group(FilterRows(rows, filter)), t);
  }

  /** Under a quiz filter, a row of another quiz is filtered out wherever it
      stands. */
  lemma OtherQuizRowDropped(before: seq<ResultRow>, row: ResultRow, after: seq<ResultRow>, filter: string)
    requires filter != AllQuizzes && row.quizId != filter
    ensures FilterRows(before + [row] + after, filter) == FilterRows(before + after, filter)
  {
    assert RowsOfQuiz([row], filter) == [] by {
      assert [row][..0] == [];
    }
    RowsOfQuizOfConcat(before, [row], filter);
    assert RowsOfQuiz(before + [row], filter) == RowsOfQuiz(before, filter);
    RowsOfQuizOfConcat(before + [row], after, filter);
    RowsOfQuizOfConcat(before, after, filter);
  }

  /** Under a quiz filter, a row of another quiz changes nothing. */
  lemma OtherQuizRowsIgnored(before: seq<ResultRow>, row: ResultRow, after: seq<ResultRow>, filter: string)
    requires filter != AllQuizzes && row.quizId != filter
    ensures Aggregate(before + [row] + after, filter) == Aggregate(before + after, filter)
  {
    OtherQuizRowDropped(before, row, after, filter);
  }

  /** The average shown for an entry; the count is never zero. */
  function Average(e: Entry): (r: real)
    requires e.count >= 1
    ensures r * e.count as real == e.total as real
  {
    e.total as real / e.count as real
  }

  /** The leaderboard after a fetch: an error, missing data or a thrown
      exception (`None`) leaves the previous list in place, otherwise it is
      recomputed from the rows; an empty array is data, and empties it. */
  function LoadLeaderboard(previous: seq<Entry>, fetched: Option<seq<ResultRow>>, filter: string): (r: seq<Entry>)
    ensures fetched.None? ==> r == previous
    ensures fetched.Some? ==>
              && SortedByTotal(r) && NamesDistinct(r)
              && EntryNames(r) == UserNames(FilterRows(fetched.value, filter))
              && SumCounts(r) == |FilterRows(fetched.value, filter)|
    ensures fetched == Some([]) ==> r == []
  {
    match fetched
    case None => previous
    case Some(rows) => Aggregate(rows, filter)
  }

  /** `loadLeaderboard` as the file stands: `supabase` is used but never
      imported there, so building the query throws a `ReferenceError` inside
      the `try`, the `catch` logs it, and whatever the table holds, the list
      keeps its previous value. */
  function LoadLeaderboardAsWritten(previous: seq<Entry>, table: seq<ResultRow>, filter: string): (r: seq<Entry>)
    ensures r == LoadLeaderboard(previous, None, filter)
  {
    previous
  }

  /** As written, the page never leaves its initial empty list, however many
      results the table holds; with the client imported, one stored result
      already gives one line. */
  lemma AsWrittenLeaderboardStaysEmpty(table: seq<ResultRow>)
    requires |table| > 0
    ensures LoadLeaderboardAsWritten([], table, AllQuizzes) == []
    ensures |LoadLeaderboard([], Some(table), AllQuizzes)| >= 1
  {
    var r := LoadLeaderboard([], Some(table), AllQuizzes);
    assert table[0] in table;
    assert table[0].userName in EntryNames(r);
  }

  // ---------------------------------------------------------------------
  // Rank badges

  /** The badge left of a line: an icon for the first three ranks, else the rank number. */
  datatype RankBadge = TrophyIcon | MedalIcon | AwardIcon | RankNumber(n: nat)

  /** `getRankIcon(index) || index + 1`. */
  function RankBadgeAt(index: nat): (b: RankBadge)
    ensures b.RankNumber? <==> index >= 3
    ensures b.RankNumber? ==> b.n == index + 1
    ensures index == 0 ==> b == TrophyIcon
    ensures index == 1 ==> b == MedalIcon
    ensures index == 2 ==> b == AwardIcon
  {
    if index == 0 then TrophyIcon
    else if index == 1 then MedalIcon
    else if index == 2 then AwardIcon
    else RankNumber(index + 1)
  }

  /** Different lines get different badges, and the rank number shown is
      never one of the first three. */
  lemma RankBadgesDistinct(i: nat, j: nat)
    requires i != j
    ensures RankBadgeAt(i) != RankBadgeAt(j)
    ensures RankBadgeAt(i).RankNumber? ==> RankBadgeAt(i).n >= 4
  {
  }

  /** Every filter button's quiz is known, so all four buttons are shown. */
  lemma FilterButtonsAllShown()
    ensures forall k :: 0 <= k < |FilterIds| ==> QuizHelpers.GetQuizById(FilterIds[k]).Some?
  {
    forall k | 0 <= k < |FilterIds| ensures QuizHelpers.GetQuizById(FilterIds[k]).Some? {
      QuizHelpers.GetQuizByIdMatchesCatalog(FilterIds[k]);
    }
  }
}

=== FILE: name_setup.dfy ===
/** The display-name form (src/pages/NameSetup.tsx): the input is trimmed as
    `String.prototype.trim` does, must not be empty, and must be at least two
    UTF-16 code units long. */
module NameSetup {
  import opened Wrappers

  /** The code points `String.prototype.trim` strips: WhiteSpace and
      LineTerminator of sections 12.2 and 12.3 of ECMA-262 (tab, vertical
      tab, form feed, space, no-break space, byte order mark, the other
      Unicode space separators, line feed, carriage return, line and
      paragraph separator). */
  predicate IsTrimmable(c: char) {
    var n := c as int;
    || n == 0x0009 || n == 0x000B || n == 0x000C || n == 0x0020
    || n == 0x00A0 || n == 0xFEFF
    || n == 0x1680 || (0x2000 <= n <= 0x200A) || n == 0x202F
    || n == 0x205F || n == 0x3000
    || n == 0x000A || n == 0x000D || n == 0x2028 || n == 0x2029
  }

  /** No trimmable character at either end. */
  predicate TrimmedEnds(s: string) {
    |s| > 0 ==> !IsTrimmable(s[0]) && !IsTrimmable(s[|s| - 1])
  }

  /** Every character of `s[lo..hi]` is trimmable. */
  predicate AllTrimmed(s: string, lo: nat, hi: nat)
    requires lo <= hi <= |s|
  {
    forall k :: lo <= k < hi ==> IsTrimmable(s[k])
  }

  /** Where the name starts once leading trimmable characters from `i` on are
      skipped. */
  function SkipLeading(s: string, i: nat): (r: nat)
    requires i <= |s|
    ensures i <= r <= |s| && AllTrimmed(s, i, r)
    ensures r < |s| ==> !IsTrimmable(s[r])
    decreases |s| - i
  {
    if i < |s| && IsTrimmable(s[i]) then SkipLeading(s, i + 1) else i
  }

  /** Where the name ends once trailing trimmable characters before `j`, but
      not before `lo`, are skipped. */
  function SkipTrailing(s: string, lo: nat, j: nat): (r: nat)
    requires lo <= j <= |s|
    ensures lo <= r <= j && AllTrimmed(s, r, j)
    ensures r > lo ==> !IsTrimmable(s[r - 1])
    decreases j
  {
    if j > lo && IsTrimmable(s[j - 1]) then SkipTrailing(s, lo, j - 1) else j
  }

  /** The offset at which the trimmed name starts in the input. */
  function TrimOffset(s: string): (r: nat)
    ensures r <= |s|
  {
    SkipLeading(s, 0)
  }

  /** `name.trim()`: the slice left after stripping trimmable characters from
      both ends. */
  function Trim(s: string): (r: string)
    ensures TrimmedEnds(r)
  {
    var a := SkipLeading(s, 0);
    s[a..SkipTrailing(s, a, |s|)]
  }

  /** `trim` returns the slice between two runs of trimmable characters, and
      keeps everything else. */
  lemma TrimIsSlice(s: string)
    ensures TrimOffset(s) + |Trim(s)| <= |s|
    ensures Trim(s) == s[TrimOffset(s)..TrimOffset(s) + |Trim(s)|]
    ensures AllTrimmed(s, 0, TrimOffset(s))
    ensures AllTrimmed(s, TrimOffset(s) + |Trim(s)|, |s|)
  {
    var a := SkipLeading(s, 0);
    var b := SkipTrailing(s, a, |s|);
    assert Trim(s) == s[a..b] && |Trim(s)| == b - a;
  }

  /** A string with no trimmable character at either end is its own trim. */
  lemma TrimOfTrimmedEnds(t: string)
    requires TrimmedEnds(t)
    ensures Trim(t) == t
  {
    assert SkipLeading(t, 0) == 0;
    assert SkipTrailing(t, 0, |t|) == |t|;
  }

  /** Trimming twice is trimming once. */
  lemma TrimIdempotent(s: string)
    ensures Trim(Trim(s)) == Trim(s)
  {
    TrimOfTrimmedEnds(Trim(s));
  }

  /** `.length`: UTF-16 code units, two for a character outside the Basic
      Multilingual Plane. */
  function Utf16Length(s: string): nat {
    if |s| == 0 then 0
    else (if s[0] as int > 0xFFFF then 2 else 1) + Utf16Length(s[1..])
  }

  lemma {:induction false} Utf16LengthBounds(s: string)
    ensures |s| <= Utf16Length(s) <= 2 * |s|
  {
    if |s| > 0 {
      Utf16LengthBounds(s[1..]);
    }
  }

  /** The two rejections of the form. */
  datatype NameError = EmptyName | NameTooShort

  /** The message shown under the input. */
  function Message(e: NameError): string {
    match e
    case EmptyName => "Bitte geben Sie einen Namen ein"
    case NameTooShort => "Der Name muss mindestens 2 Zeichen lang sein"
  }

  /** `handleSubmit`'s checks: the name handed to `onNameSet`, or the error. */
  function ValidateName(input: string): (r: Result<string, NameError>)
    ensures r == Err(EmptyName) <==> Trim(input) == ""
    ensures r == Err(NameTooShort) <==> Trim(input) != "" && Utf16Length(Trim(input)) < 2
    ensures r.Ok? ==> r.value == Trim(input) && Utf16Length(r.value) >= 2 && TrimmedEnds(r.value)
  {
    var name := Trim(input);
    if name == "" then Err(EmptyName)
    else if Utf16Length(name) < 2 then Err(NameTooShort)
    else Ok(name)
  }

  /** An accepted name is accepted again unchanged, and is never blank. */
  lemma AcceptedNameIsStable(input: string)
    requires ValidateName(input).Ok?
    ensures ValidateName(ValidateName(input).value) == ValidateName(input)
    ensures ValidateName(input).value != ""
  {
    TrimIdempotent(input);
  }

  /** One visible character of the Basic Multilingual Plane, however padded,
      is too short; one character outside it is two code units and passes. */
  lemma OneCharacterNames(pad: string, c: char)
    requires AllTrimmed(pad, 0, |pad|)
    requires !IsTrimmable(c)
    ensures c as int <= 0xFFFF ==> ValidateName(pad + [c] + pad) == Err(NameTooShort)
    ensures c as int > 0xFFFF ==> ValidateName(pad + [c] + pad) == Ok([c])
  {
    var s := pad + [c] + pad;
    var n := |pad|;
    assert s[n] == c;
    assert AllTrimmed(s, 0, n) by {
      forall k | 0 <= k < n ensures IsTrimmable(s[k]) {
        assert s[k] == pad[k];
      }
    }
    assert AllTrimmed(s, n + 1, |s|) by {
      forall k | n + 1 <= k < |s| ensures IsTrimmable(s[k]) {
        assert s[k] == pad[k - n - 1];
      }
    }
    assert SkipLeading(s, n) == n;
    SkipLeadingOverRun(s, 0, n);
    assert SkipTrailing(s, n, n + 1) == n + 1;
    SkipTrailingOverRun(s, n, n + 1, |s|);
    assert Trim(s) == s[n..n + 1] == [c];
    assert Utf16Length([c]) == (if c as int > 0xFFFF then 2 else 1) + Utf16Length([]);
  }

  /** Skipping leading characters passes a run of trimmable ones. */
  lemma {:induction false} SkipLeadingOverRun(s: string, i: nat, m: nat)
    requires i <= m <= |s| && AllTrimmed(s, i, m)
    ensures SkipLeading(s, i) == SkipLeading(s, m)
    decreases m - i
  {
    if i < m {
      SkipLeadingOverRun(s, i + 1, m);
    }
  }

  /** Skipping trailing characters passes a run of trimmable ones. */
  lemma {:induction false} SkipTrailingOverRun(s: string, lo: nat, m: nat, j: nat)
    requires lo <= m <= j <= |s| && AllTrimmed(s, m, j)
    ensures SkipTrailing(s, lo, j) == SkipTrailing(s, lo, m)
    decreases j
  {
    if m < j {
      SkipTrailingOverRun(s, lo, m, j - 1);
    }
  }

  /** The form: the input's value and the error shown under it. */
  datatype Form = Form(value: string, error: string)

  /** Typing replaces the value and clears the error. */
  function Edit(form: Form, value: string): (r: Form)
    ensures r.value == value && r.error == ""
  {
    Form(value, "")
  }

  /** Submitting: either `onNameSet` receives the trimmed name, or the error is shown. */
  function Submit(form: Form): (r: (Form, Option<string>))
    ensures r.1.Some? <==> ValidateName(form.value).Ok?
    ensures r.1.Some? ==> r.1.value == Trim(form.value) && r.0 == form
    ensures r.1.None? ==> r.0.value == form.value && r.0.error == Message(ValidateName(form.value).error)
  {
    match ValidateName(form.value)
    case Ok(name) => (form, Some(name))
    case Err(e) => (form.(error := Message(e)), None)
  }
}

=== FILE: quiz_data.dfy ===
/** The static question catalog of src/data/quizData.ts: four quizzes of five
    multiple-choice questions each, keyed by quiz id. */
module QuizData {

  /** One multiple-choice question; `correctAnswer` indexes `options`. */
  datatype Question = Question(question: string, options: seq<string>, correctAnswer: int)

  /** One quiz of the catalog. */
  datatype Quiz = Quiz(id: string, title: string, tag: string, questions: seq<Question>)

  /** A question whose correct answer is one of its own options. */
  predicate ValidQuestion(q: Question) {
    0 <= q.correctAnswer < |q.options|
  }

  /** The shape every catalog entry has: keyed by its own id, five questions,
      four options per question, the correct index among them. */
  predicate WellFormedEntry(key: string, quiz: Quiz) {
    && quiz.id == key
    && |quiz.questions| == 5
    && forall i :: 0 <= i < |quiz.questions| ==>
         |quiz.questions[i].options| == 4 && ValidQuestion(quiz.questions[i])
  }

  predicate WellFormedCatalog(catalog: map<string, Quiz>) {
    forall key :: key in catalog ==> WellFormedEntry(key, catalog[key])
  }

  const GeneralKnowledge := Quiz("general-knowledge", "Allgemeinwissen", "Wissen", [
    Question("Welches ist die Hauptstadt von Deutschland?",
      ["München", "Berlin", "Hamburg", "Frankfurt"], 1),
    Question("Wie viele Kontinente gibt es?",
      ["5", "6", "7", "8"], 2),
    Question("Wer malte die Mona Lisa?",
      ["Vincent van Gogh", "Pablo Picasso", "Leonardo da Vinci", "Michelangelo"], 2),
    Question("Welches ist der größte Planet in unserem Sonnensystem?",
      ["Saturn", "Jupiter", "Neptun", "Uranus"], 1),
    Question("In welchem Jahr fiel die Berliner Mauer?",
      ["1987", "1988", "1989", "1990"], 2)
  ])

  const Logic := Quiz("logic", "Logik & Denken", "Logik", [
    Question("Welche Zahl kommt als nächstes? 2, 4, 8, 16, ...",
      ["20", "24", "32", "64"], 2),
    Question("Wenn alle Blumen Pflanzen sind und einige Pflanzen grün sind, was ist dann sicher wahr?",
      ["Alle Blumen sind grün", "Einige Blumen sind grün", "Keine Blumen sind grün", "Keine der Aussagen ist sicher wahr"], 3),
    Question("Ein Buch kostet 10€ plus die Hälfte seines Preises. Wie viel kostet das Buch?",
      ["15€", "20€", "25€", "30€"], 1),
    Question("Welches Wort passt nicht in die Reihe? Apfel, Birne, Karotte, Banane",
      ["Apfel", "Birne", "Karotte", "Banane"], 2),
    Question("Wenn es 12 Uhr mittags ist und die Uhr in 12 Stunden zweimal 90° dreht, welche Uhrzeit zeigt sie dann?",
      ["12 Uhr", "18 Uhr", "6 Uhr", "3 Uhr"], 2)
  ])

  const Creativity := Quiz("creativity", "Kreativität", "Kreativ", [
    Question("Welche Farben sind die Primärfarben in der Malerei?",
      ["Rot, Gelb, Grün", "Rot, Blau, Gelb", "Rot, Grün, Blau", "Orange, Lila, Grün"], 1),
    Question("Wer komponierte die \"Mondscheinsonate\"?",
      ["Mozart", "Beethoven", "Bach", "Chopin"], 1),
    Question("Was ist ein Haiku?",
      ["Ein japanisches Gericht", "Eine japanische Gedichtform", "Ein japanischer Kampfsport", "Ein japanisches Musikinstrument"], 1),
    Question("Welcher Künstler ist für seine \"Sternennacht\" bekannt?",
      ["Claude Monet", "Vincent van Gogh", "Pablo Picasso", "Salvador Dalí"], 1),
    Question("Was bedeutet \"a cappella\" in der Musik?",
      ["Sehr laut", "Sehr leise", "Ohne Begleitung von Instrumenten", "Mit Orchester"], 2)
  ])

  const Sports := Quiz("sports", "Sport & Trivia", "Sport", [
    Question("Wie viele Spieler hat eine Fußballmannschaft auf dem Feld?",
      ["9", "10", "11", "12"], 2),
    Question("Welches Land gewann die FIFA Weltmeisterschaft 2014?",
      ["Brasilien", "Argentinien", "Deutschland", "Spanien"], 2),
    Question("Wie viele Ringe hat das olympische Symbol?",
      ["4", "5", "6", "7"], 1),
    Question("In welcher Sportart ist der \"Slam Dunk\" eine bekannte Technik?",
      ["Tennis", "Volleyball", "Basketball", "Handball"], 2),
    Question("Wie heißt der wichtigste Tennisplatz in Wimbledon?",
      ["Court One", "Main Court", "Centre Court", "Royal Court"], 2)
  ])

  /** The `quizData` record: quiz id to quiz. */
  const Catalog: map<string, Quiz> := map[
    "general-knowledge" := GeneralKnowledge,
    "logic" := Logic,
    "creativity" := Creativity,
    "sports" := Sports
  ]

  /** The correct option index of every question of a quiz, in order. */
  function CorrectAnswers(quiz: Quiz): (r: seq<int>)
  {
    seq(|quiz.questions|, i requires 0 <= i < |quiz.questions| => quiz.questions[i].correctAnswer)
  }

  /** Every catalog entry is keyed by its own id, has five questions of four
      options each, and its correct index names one of those options. */
  lemma CatalogIsWellFormed()
    ensures WellFormedCatalog(Catalog)
    ensures Catalog.Keys == {"general-knowledge", "logic", "creativity", "sports"}
  {
    assert WellFormedEntry("general-knowledge", GeneralKnowledge);
    assert WellFormedEntry("logic", Logic);
    assert WellFormedEntry("creativity", Creativity);
    assert WellFormedEntry("sports", Sports);
  }

  /** The answer key of the general-knowledge quiz. */
  lemma GeneralKnowledgeAnswerKey()
    ensures "general-knowledge" in Catalog
    ensures CorrectAnswers(Catalog["general-knowledge"]) == [1, 2, 2, 1, 2]
  {
  }
}

=== FILE: quiz_helpers.dfy ===
/** The `quizzes` list of src/lib/quizHelpers.ts, which no page renders, and
    `getQuizById`, the lookup of a listed quiz by id. */
module QuizHelpers {
  import opened Wrappers
  import QuizData

  /** The lucide icon a quiz card shows. */
  datatype Icon = BookOpen | Brain | Lightbulb | Trophy

  /** A quiz card: the display metadata of one catalog quiz. */
  datatype QuizInfo = QuizInfo(id: string, title: string, tag: string, description: string, icon: Icon, color: string)

  /** The `quizzes` array, in display order. */
  const Quizzes: seq<QuizInfo> := [
    QuizInfo("general-knowledge", "Allgemeinwissen", "Wissen",
      "5 Fragen zu verschiedenen Themen", BookOpen, "blue"),
    QuizInfo("logic", "Logik & Denken", "Logik",
      "Teste deine logischen Fähigkeiten", Brain, "green"),
    QuizInfo("creativity", "Kreativität", "Kreativ",
      "Fragen rund um Kreativität und Kunst", Lightbulb, "orange"),
    QuizInfo("sports", "Sport & Trivia", "Sport",
      "Wie gut kennst du dich mit Sport aus?", Trophy, "red")
  ]

  /** Some element of `list` has identifier `id`. */
  predicate Listed(list: seq<QuizInfo>, id: string) {
    exists k :: 0 <= k < |list| && list[k].id == id
  }

  /** `Array.prototype.find` by id: the first listed quiz whose id matches, or
      `None` when there is none. */
  function FindById(list: seq<QuizInfo>, id: string): (r: Option<QuizInfo>)
    ensures r.Some? <==> Listed(list, id)
    ensures r.Some? ==> r.value.id == id && r.value in list
    ensures r.Some? ==> exists k :: 0 <= k < |list| && list[k] == r.value
                          && forall j :: 0 <= j < k ==> list[j].id != id
  {
    if |list| == 0 then None
    else if list[0].id == id then Some(list[0])
    else
      var rest := FindById(list[1..], id);
      assert Listed(list[1..], id) ==> Listed(list, id) by {
        if Listed(list[1..], id) {
          var k :| 0 <= k < |list[1..]| && list[1..][k].id == id;
          assert list[k + 1].id == id;
        }
      }
      assert rest.Some? ==> exists k :: 0 <= k < |list| && list[k] == rest.value
                              && forall j :: 0 <= j < k ==> list[j].id != id by {
        if rest.Some? {
          var k :| 0 <= k < |list[1..]| && list[1..][k] == rest.value
                   && forall j :: 0 <= j < k ==> list[1..][j].id != id;
          assert list[k + 1] == rest.value;
          forall j | 0 <= j < k + 1 ensures list[j].id != id {
            if j > 0 { assert list[j] == list[1..][j - 1]; }
          }
        }
      }
      rest
  }

  /** `getQuizById`: the first listed card with the id, if any. */
  function GetQuizById(id: string): (r: Option<QuizInfo>)
    ensures r.Some? <==> Listed(Quizzes, id)
    ensures r.Some? ==> r.value.id == id && r.value in Quizzes
  {
    FindById(Quizzes, id)
  }

  /** The identifiers of a quiz list, in order. */
  function Ids(list: seq<QuizInfo>): (r: seq<string>)
    ensures |r| == |list|
    ensures forall k :: 0 <= k < |list| ==> r[k] == list[k].id
  {
    if |list| == 0 then [] else [list[0].id] + Ids(list[1..])
  }

  /** No identifier occurs twice. */
  predicate DistinctIds(list: seq<QuizInfo>) {
    forall i, j :: 0 <= i < j < |list| ==> list[i].id != list[j].id
  }

  /** With distinct ids, the lookup finds exactly the listed quiz. */
  lemma FindUnique(list: seq<QuizInfo>, k: nat)
    requires DistinctIds(list)
    requires k < |list|
    ensures FindById(list, list[k].id) == Some(list[k])
  {
    var r := FindById(list, list[k].id);
    var m :| 0 <= m < |list| && list[m] == r.value
             && forall j :: 0 <= j < m ==> list[j].id != list[k].id;
    assert list[m].id == list[k].id;
  }

  /** The quiz list and the catalog agree: the same ids, no id twice, and each
      card's title and tag are those of its catalog entry. */
  lemma QuizzesMatchCatalog()
    ensures DistinctIds(Quizzes)
    ensures (set k | 0 <= k < |Quizzes| :: Quizzes[k].id) == QuizData.Catalog.Keys
    ensures forall k :: 0 <= k < |Quizzes| ==>
              Quizzes[k].id in QuizData.Catalog
              && QuizData.Catalog[Quizzes[k].id].title == Quizzes[k].title
              && QuizData.Catalog[Quizzes[k].id].tag == Quizzes[k].tag
  {
    QuizIdsDistinct();
    QuizIdsAreCatalogKeys();
    QuizCardsMatchEntries();
  }

  lemma QuizIdsDistinct()
    ensures DistinctIds(Quizzes)
  {
    assert Ids(Quizzes) == ["general-knowledge", "logic", "creativity", "sports"];
  }

  lemma QuizIdsAreCatalogKeys()
    ensures (set k | 0 <= k < |Quizzes| :: Quizzes[k].id) == QuizData.Catalog.Keys
  {
    var ids := set k | 0 <= k < |Quizzes| :: Quizzes[k].id;
    assert ids == {"general-knowledge", "logic", "creativity", "sports"} by {
      assert Quizzes[0].id in ids && Quizzes[1].id in ids && Quizzes[2].id in ids && Quizzes[3].id in ids;
    }
    QuizData.CatalogIsWellFormed();
  }

  lemma QuizCardsMatchEntries()
    ensures forall k :: 0 <= k < |Quizzes| ==>
              Quizzes[k].id in QuizData.Catalog
              && QuizData.Catalog[Quizzes[k].id].title == Quizzes[k].title
              && QuizData.Catalog[Quizzes[k].id].tag == Quizzes[k].tag
  {
    QuizData.CatalogIsWellFormed();
  }

  /** `getQuizById(id)` answers exactly for the catalog's keys, and the card
      found carries the requested id. */
  lemma GetQuizByIdMatchesCatalog(id: string)
    ensures GetQuizById(id).Some? <==> id in QuizData.Catalog
    ensures GetQuizById(id).Some? ==> GetQuizById(id).value.id == id
  {
    QuizzesMatchCatalog();
    if id in QuizData.Catalog {
      var k :| 0 <= k < |Quizzes| && Quizzes[k].id == id;
    }
  }

  /** A card of the quiz list exists exactly for the catalog's keys. */
  lemma ListedIffInCatalog(id: string)
    ensures Listed(Quizzes, id) <==> id in QuizData.Catalog
  {
    GetQuizByIdMatchesCatalog(id);
  }
}

=== FILE: quiz_list.dfy ===
/** The quiz list page (src/pages/QuizList.tsx): dispatch of a scanned QR
    code, and the list of the user's past results graded out of five. */
module QuizList {
  import opened Wrappers
  import QuizData
  import QuizHelpers
  import Scoring

  /** What a scan leads to: opening the quiz, or the invalid-code alert. */
  datatype ScanAction = SelectQuiz(quizId: string) | InvalidCodeAlert

  /** The scanner overlay's visibility after a scan, and the action taken. */
  datatype ScanOutcome = ScanOutcome(scannerOpen: bool, action: ScanAction)

  /** `handleQRScan`: the scanner closes, then a known id is forwarded
      unchanged and an unknown one raises the alert. */
  function HandleQRScan(scanned: string): (r: ScanOutcome)
    ensures !r.scannerOpen
    ensures r.action.SelectQuiz? <==> scanned in QuizData.Catalog
    ensures r.action.SelectQuiz? ==> r.action.quizId == scanned
  {
    QuizHelpers.GetQuizByIdMatchesCatalog(scanned);
    var action := if QuizHelpers.GetQuizById(scanned).Some? then SelectQuiz(scanned) else InvalidCodeAlert;
    ScanOutcome(false, action)
  }

  /** A row of the user's own results: `quiz_id, score, created_at`. */
  datatype CompletedQuiz = CompletedQuiz(quizId: string, score: int, createdAt: string)

  /** A card of the results list: the quiz's card data, the score and its colour. */
  datatype ListedResult = ListedResult(quiz: QuizHelpers.QuizInfo, score: int, band: Scoring.Band)

  /** The colour of a past result: `(score / 5) * 100` against 80 and 60,
      whatever the number of questions of the quiz. */
  function FixedBand(score: int): (b: Scoring.Band)
    ensures b == Scoring.Green <==> score >= 4
    ensures b == Scoring.Yellow <==> score == 3
    ensures b == Scoring.Red <==> score <= 2
  {
    Scoring.GradeBand(score, 5)
  }

  /** The card a row renders against the quiz list `quizzes`, if its quiz is
      listed there: that quiz's card, the row's score and its colour out of
      five. */
  function CardFor(quizzes: seq<QuizHelpers.QuizInfo>, row: CompletedQuiz): (r: Option<ListedResult>)
    ensures r.Some? <==> QuizHelpers.Listed(quizzes, row.quizId)
    ensures r.Some? ==> r.value.quiz.id == row.quizId && r.value.quiz in quizzes && r.value.score == row.score
  {
    match QuizHelpers.FindById(quizzes, row.quizId)
    case None => None
    case Some(quiz) => Some(ListedResult(quiz, row.score, FixedBand(row.score)))
  }

  /** The cards one row contributes. */
  function CardsOf(quizzes: seq<QuizHelpers.QuizInfo>, row: CompletedQuiz): seq<ListedResult> {
    if CardFor(quizzes, row).Some? then [CardFor(quizzes, row).value] else []
  }

  /** The cards of the results list, in the order the rows arrive; a row
      whose quiz is not listed renders nothing. */
  function ListResults(quizzes: seq<QuizHelpers.QuizInfo>, results: seq<CompletedQuiz>): (r: seq<ListedResult>)
    ensures |r| <= |results|
  {
    if |results| == 0 then []
    else ListResults(quizzes, results[..|results| - 1]) + CardsOf(quizzes, results[|results| - 1])
  }

  /** `loadCompletedQuizzes`: an error or missing data (`None`) keeps the rows
      already held, initially `[]`; otherwise the fetched rows replace them. */
  function LoadCompletedQuizzes(previous: seq<CompletedQuiz>, fetched: Option<seq<CompletedQuiz>>): (r: seq<CompletedQuiz>)
    ensures fetched.None? ==> r == previous
    ensures fetched.Some? ==> r == fetched.value
  {
    if fetched.Some? then fetched.value else previous
  }

  /** After the page's one load, a failed fetch shows no card at all, and a
      successful one shows exactly the cards of the fetched rows. */
  lemma CardsAfterLoad(quizzes: seq<QuizHelpers.QuizInfo>, fetched: Option<seq<CompletedQuiz>>)
    ensures fetched.None? ==> ListResults(quizzes, LoadCompletedQuizzes([], fetched)) == []
    ensures fetched.Some? ==>
              ListResults(quizzes, LoadCompletedQuizzes([], fetched)) == ListResults(quizzes, fetched.value)
  {
  }

  /** The results list of the page, rendered against `getQuizById`'s list. */
  function ResultCards(results: seq<CompletedQuiz>): seq<ListedResult> {
    ListResults(QuizHelpers.Quizzes, results)
  }

  /** Every card shown is a listed quiz's card with its own id, coloured out
      of five. */
  lemma {:induction false} ListedCardsAreListed(quizzes: seq<QuizHelpers.QuizInfo>, results: seq<CompletedQuiz>)
    ensures forall k :: 0 <= k < |ListResults(quizzes, results)| ==>
              var card := ListResults(quizzes, results)[k];
              QuizHelpers.Listed(quizzes, card.quiz.id) && card.band == FixedBand(card.score)
  {
    if |results| > 0 {
      ListedCardsAreListed(quizzes, results[..|results| - 1]);
    }
  }

  /** The list is built row by row in arrival order: the cards of two row
      lists joined are the two card lists joined. With `CardsOf` for a
      single row, this makes the list the in-order filter-map of `CardFor`. */
  lemma {:induction false} ListResultsOfConcat(quizzes: seq<QuizHelpers.QuizInfo>, a: seq<CompletedQuiz>, b: seq<CompletedQuiz>)
    ensures ListResults(quizzes, a + b) == ListResults(quizzes, a) + ListResults(quizzes, b)
    decreases |b|
  {
    if |b| > 0 {
      var ab, b', last := a + b, b[..|b| - 1], b[|b| - 1];
      var tail := CardsOf(quizzes, last);
      assert ab[..|ab| - 1] == a + b' && ab[|ab| - 1] == last;
      assert ListResults(quizzes, ab) == ListResults(quizzes, a + b') + tail;
      assert ListResults(quizzes, b) == ListResults(quizzes, b') + tail;
      ListResultsOfConcat(quizzes, a, b');
      assert ListResults(quizzes, a) + ListResults(quizzes, b') + tail
          == ListResults(quizzes, a) + (ListResults(quizzes, b') + tail);
    } else {
      assert a + b == a;
    }
  }

  /** A single row renders exactly its own card, if any. */
  lemma ListResultsOfOne(quizzes: seq<QuizHelpers.QuizInfo>, row: CompletedQuiz)
    ensures ListResults(quizzes, [row]) == CardsOf(quizzes, row)
  {
    assert [row][..0] == [];
  }

  /** Every card is the card of some result row. */
  lemma {:induction false} CardsComeFromRows(quizzes: seq<QuizHelpers.QuizInfo>, results: seq<CompletedQuiz>)
    ensures forall k :: 0 <= k < |ListResults(quizzes, results)| ==>
              exists j :: 0 <= j < |results| && CardFor(quizzes, results[j]) == Some(ListResults(quizzes, results)[k])
  {
    if |results| > 0 {
      var prefix := results[..|results| - 1];
      var last := results[|results| - 1];
      var listed := ListResults(quizzes, prefix);
      var out := ListResults(quizzes, results);
      assert out == listed + CardsOf(quizzes, last);
      CardsComeFromRows(quizzes, prefix);
      forall k | 0 <= k < |out|
        ensures exists j :: 0 <= j < |results| && CardFor(quizzes, results[j]) == Some(out[k])
      {
        if k < |listed| {
          var j :| 0 <= j < |prefix| && CardFor(quizzes, prefix[j]) == Some(listed[k]);
          assert results[j] == prefix[j] && out[k] == listed[k];
        } else {
          assert out[k] == CardsOf(quizzes, last)[k - |listed|];
          assert CardFor(quizzes, results[|results| - 1]) == Some(out[k]);
        }
      }
    } else {
      assert ListResults(quizzes, results) == [];
    }
  }

  /** A row whose quiz is not listed contributes no card, and a row whose
      quiz is listed contributes a card with its score. */
  lemma {:induction false} ListResultsKeepsListedRows(quizzes: seq<QuizHelpers.QuizInfo>, results: seq<CompletedQuiz>, x: CompletedQuiz)
    requires x in results
    ensures !QuizHelpers.Listed(quizzes, x.quizId) ==>
              forall k :: 0 <= k < |ListResults(quizzes, results)| ==> ListResults(quizzes, results)[k].quiz.id != x.quizId
    ensures QuizHelpers.Listed(quizzes, x.quizId) ==>
              exists k :: 0 <= k < |ListResults(quizzes, results)|
                && ListResults(quizzes, results)[k].quiz.id == x.quizId && ListResults(quizzes, results)[k].score == x.score
  {
    var prefix := results[..|results| - 1];
    var last := results[|results| - 1];
    var listed := ListResults(quizzes, prefix);
    var out := ListResults(quizzes, results);
    assert results == prefix + [last];
    assert out == listed + CardsOf(quizzes, last);
    if x == last {
      if CardFor(quizzes, x).Some? {
        assert out[|listed|] == CardFor(quizzes, x).value;
      } else {
        ListedCardsAreListed(quizzes, prefix);
      }
    } else {
      assert x in prefix;
      ListResultsKeepsListedRows(quizzes, prefix, x);
      if CardFor(quizzes, x).Some? {
        var k :| 0 <= k < |listed| && listed[k].quiz.id == x.quizId && listed[k].score == x.score;
        assert out[k] == listed[k];
      } else if CardFor(quizzes, last).Some? {
        assert out[|listed|] == CardFor(quizzes, last).value;
      }
    }
  }

  /** Every card of the page belongs to a catalog quiz and is coloured out of five. */
  lemma ListedCardsAreKnown(results: seq<CompletedQuiz>)
    ensures forall k :: 0 <= k < |ResultCards(results)| ==>
              var card := ResultCards(results)[k];
              card.quiz.id in QuizData.Catalog && card.band == FixedBand(card.score)
  {
    ListedCardsAreListed(QuizHelpers.Quizzes, results);
    forall k | 0 <= k < |ResultCards(results)|
      ensures ResultCards(results)[k].quiz.id in QuizData.Catalog
    {
      QuizHelpers.ListedIffInCatalog(ResultCards(results)[k].quiz.id);
    }
  }

  /** On the page, a row of a quiz the catalog does not know contributes no
      card, and a row of a known quiz contributes a card with its score. */
  lemma ListResultsKeepsKnownRows(results: seq<CompletedQuiz>, x: CompletedQuiz)
    requires x in results
    ensures x.quizId !in QuizData.Catalog ==>
              forall k :: 0 <= k < |ResultCards(results)| ==> ResultCards(results)[k].quiz.id != x.quizId
    ensures x.quizId in QuizData.Catalog ==>
              exists k :: 0 <= k < |ResultCards(results)|
                && ResultCards(results)[k].quiz.id == x.quizId && ResultCards(results)[k].score == x.score
  {
    var cards := ListResults(QuizHelpers.Quizzes, results);
    QuizHelpers.ListedIffInCatalog(x.quizId);
    ListResultsKeepsListedRows(QuizHelpers.Quizzes, results, x);
    if x.quizId in QuizData.Catalog {
      var k :| 0 <= k < |cards| && cards[k].quiz.id == x.quizId && cards[k].score == x.score;
      assert ResultCards(results)[k] == cards[k];
    }
  }
}

=== FILE: quiz_session.dfy ===
/** The question-by-question flow of one quiz (src/pages/Quiz.tsx): selecting
    an option, the Next button, submission of the result record and the
    results screen. */
module QuizSession {
  import opened Wrappers
  import opened QuizData
  import opened Scoring
  import Storage

  /** Where the page is. `Submitting(score)` and `ShowingResults(submitted)`
      carry the score `handleSubmitQuiz` computed before awaiting the insert:
      the value written to the result record. */
  datatype Phase = Answering | Submitting(score: int) | ShowingResults(submitted: int)

  /** The page state: `currentQuestion`, `selectedAnswers`, and the
      `isSubmitting` / `showResults` flags folded into the phase. */
  datatype Session = Session(current: nat, answers: Answers, phase: Phase)

  /** The state a freshly mounted quiz page starts in. */
  const Start: Session := Session(0, [], Answering)

  /** `isSubmitting`. */
  predicate IsSubmitting(s: Session) {
    s.phase.Submitting?
  }

  /** `newAnswers[i] = v` on a copy: slots between the old end and `i` become holes. */
  function SetSlot(answers: Answers, i: nat, v: int): (r: Answers)
    ensures |r| == if i < |answers| then |answers| else i + 1
    ensures AnswerAt(r, i) == Some(v)
    ensures forall j: nat :: j != i ==> AnswerAt(r, j) == AnswerAt(answers, j)
  {
    if i < |answers| then answers[i := Some(v)]
    else answers + seq(i - |answers|, _ => None) + [Some(v)]
  }

  /** `handleSelectAnswer` as written: the option buttons stay on screen, and
      clickable, while the insert is in flight. */
  function SelectAnswerAsWritten(s: Session, option: int): (r: Session)
    ensures r.current == s.current && r.phase == s.phase
    ensures !s.phase.ShowingResults? ==> AnswerAt(r.answers, s.current) == Some(option)
    ensures forall j: nat :: j != s.current ==> AnswerAt(r.answers, j) == AnswerAt(s.answers, j)
  {
    if s.phase.ShowingResults? then s
    else s.(answers := SetSlot(s.answers, s.current, option))
  }

  /** `handleSelectAnswer`, ignoring clicks once the quiz is submitted. */
  function SelectAnswer(s: Session, option: int): (r: Session)
    ensures r.current == s.current && r.phase == s.phase
    ensures s.phase.Answering? ==> AnswerAt(r.answers, s.current) == Some(option)
    ensures !s.phase.Answering? ==> r == s
    ensures forall j: nat :: j != s.current ==> AnswerAt(r.answers, j) == AnswerAt(s.answers, j)
  {
    if s.phase.Answering? then s.(answers := SetSlot(s.answers, s.current, option))
    else s
  }

  /** The Next button is shown (no results yet) and enabled: the current slot
      is answered and no submission is in flight. */
  predicate NextEnabled(s: Session): (r: bool)
    ensures r <==> s.phase.Answering? && AnswerAt(s.answers, s.current).Some?
  {
    && !s.phase.ShowingResults?
    && AnswerAt(s.answers, s.current).Some?
    && !IsSubmitting(s)
  }

  /** The states either version of the page can reach: the index stays on a
      question, the array never outgrows the quiz, every earlier question is
      answered, and once submitted every question is answered. */
  ghost predicate Consistent(questions: seq<Question>, s: Session) {
    && |questions| > 0
    && s.current < |questions|
    && |s.answers| <= |questions|
    && (forall i: nat :: i < s.current ==> AnswerAt(s.answers, i).Some?)
    && (!s.phase.Answering? ==>
          s.current == |questions| - 1 && |s.answers| == |questions|
          && forall i :: 0 <= i < |s.answers| ==> s.answers[i].Some?)
  }

  /** The states the corrected page can reach: consistent, and the captured
      score is the score of the answers on screen. */
  ghost predicate Reachable(questions: seq<Question>, s: Session) {
    && Consistent(questions, s)
    && (s.phase.Submitting? ==> s.phase.score == Score(questions, s.answers))
    && (s.phase.ShowingResults? ==> s.phase.submitted == Score(questions, s.answers))
  }

  /** `handleNext`: advance while a later question exists, otherwise start
      `handleSubmitQuiz`, which computes the score before awaiting the insert. */
  function HandleNext(questions: seq<Question>, s: Session): (r: Session)
    requires |questions| > 0
    requires |s.answers| <= |questions|
    ensures s.current < |questions| - 1 ==> r == s.(current := s.current + 1)
    ensures s.current >= |questions| - 1 ==> r == s.(phase := Submitting(Score(questions, s.answers)))
  {
    if s.current < |questions| - 1 then s.(current := s.current + 1)
    else s.(phase := Submitting(Score(questions, s.answers)))
  }

  /** The `finally` of `handleSubmitQuiz`: whatever the insert did, the
      submitting flag clears and the results are shown. */
  function FinishSubmit(s: Session): (r: Session)
    ensures s.phase.Submitting? ==> r == s.(phase := ShowingResults(s.phase.score))
    ensures !s.phase.Submitting? ==> r == s
  {
    match s.phase
    case Submitting(score) => s.(phase := ShowingResults(score))
    case _ => s
  }

  /** The user and network events the page reacts to. */
  datatype Event = Select(option: int) | PressNext | InsertSettled

  /** One event: a click on a disabled Next does nothing, and once the quiz
      is submitted the answers are frozen. */
  function Step(questions: seq<Question>, s: Session, e: Event): (r: Session)
    requires |questions| > 0
    requires |s.answers| <= |questions|
    requires s.current < |questions|
    ensures e.Select? ==> r.current == s.current && r.phase == s.phase
    ensures e.Select? && !s.phase.Answering? ==> r == s
    ensures e.Select? && s.phase.Answering? ==> AnswerAt(r.answers, s.current) == Some(e.option)
    ensures e.Select? ==> forall j: nat :: j != s.current ==> AnswerAt(r.answers, j) == AnswerAt(s.answers, j)
    ensures e.PressNext? && !NextEnabled(s) ==> r == s
    ensures e.PressNext? && NextEnabled(s) && s.current + 1 < |questions| ==>
              r == s.(current := s.current + 1)
    ensures e.PressNext? && NextEnabled(s) && s.current + 1 >= |questions| ==>
              r == s.(phase := Submitting(Score(questions, s.answers)))
    ensures e.InsertSettled? ==> r.current == s.current && r.answers == s.answers
  {
    match e
    case Select(option) => SelectAnswer(s, option)
    case PressNext => if NextEnabled(s) then HandleNext(questions, s) else s
    case InsertSettled => FinishSubmit(s)
  }

  /** The same event with the as-written answer selection: a click while the
      insert is in flight still changes the current answer. */
  function StepAsWritten(questions: seq<Question>, s: Session, e: Event): (r: Session)
    requires |questions| > 0
    requires |s.answers| <= |questions|
    requires s.current < |questions|
    ensures e.Select? ==> r.current == s.current && r.phase == s.phase
    ensures r.current < |questions| && |r.answers| <= |questions|
    ensures e.Select? && !s.phase.ShowingResults? ==> AnswerAt(r.answers, s.current) == Some(e.option)
    ensures e.Select? && s.phase.ShowingResults? ==> r == s
    ensures e.Select? ==> forall j: nat :: j != s.current ==> AnswerAt(r.answers, j) == AnswerAt(s.answers, j)
    ensures e.PressNext? && !NextEnabled(s) ==> r == s
    ensures e.PressNext? && NextEnabled(s) && s.current + 1 < |questions| ==>
              r == s.(current := s.current + 1)
    ensures e.PressNext? && NextEnabled(s) && s.current + 1 >= |questions| ==>
              r == s.(phase := Submitting(Score(questions, s.answers)))
    ensures e.InsertSettled? ==> r.current == s.current && r.answers == s.answers
  {
    match e
    case Select(option) => SelectAnswerAsWritten(s, option)
    case PressNext => if NextEnabled(s) then HandleNext(questions, s) else s
    case InsertSettled => FinishSubmit(s)
  }

  /** Every event keeps the page in a reachable state. */
  lemma StepKeepsReachable(questions: seq<Question>, s: Session, e: Event)
    requires Reachable(questions, s)
    ensures Reachable(questions, Step(questions, s, e))
  {
    var r := Step(questions, s, e);
    match e
    case Select(option) =>
    case PressNext =>
      if NextEnabled(s) && s.current >= |questions| - 1 {
        assert AnswerAt(s.answers, s.current).Some?;
        assert |s.answers| == |questions|;
        forall i | 0 <= i < |s.answers| ensures s.answers[i].Some? {
          assert AnswerAt(s.answers, i).Some?;
        }
      }
    case InsertSettled =>
  }

  /** The as-written page keeps its states consistent too: only the score
      clauses of `Reachable` are lost. */
  lemma StepAsWrittenKeepsConsistent(questions: seq<Question>, s: Session, e: Event)
    requires Consistent(questions, s)
    ensures Consistent(questions, StepAsWritten(questions, s, e))
  {
    match e
    case Select(option) =>
    case PressNext =>
      if NextEnabled(s) && s.current >= |questions| - 1 {
        assert AnswerAt(s.answers, s.current).Some?;
        assert |s.answers| == |questions|;
        forall i | 0 <= i < |s.answers| ensures s.answers[i].Some? {
          assert AnswerAt(s.answers, i).Some?;
        }
      }
    case InsertSettled =>
  }

  /** Events applied in order. */
  function Run(questions: seq<Question>, s: Session, events: seq<Event>): (r: Session)
    requires Reachable(questions, s)
    ensures Reachable(questions, r)
    decreases |events|
  {
    if |events| == 0 then s
    else
      StepKeepsReachable(questions, s, events[0]);
      Run(questions, Step(questions, s, events[0]), events[1..])
  }

  /** Events applied in order to the as-written page. */
  function RunAsWritten(questions: seq<Question>, s: Session, events: seq<Event>): (r: Session)
    requires Consistent(questions, s)
    ensures Consistent(questions, r)
    decreases |events|
  {
    if |events| == 0 then s
    else
      StepAsWrittenKeepsConsistent(questions, s, events[0]);
      RunAsWritten(questions, StepAsWritten(questions, s, events[0]), events[1..])
  }

  /** From a fresh as-written page, whatever the user does: the index stays
      on a question and submission only happens with every question answered;
      only the agreement of the shown score with the submitted one is lost. */
  lemma AsWrittenSubmitsOnlyWhenAnswered(questions: seq<Question>, events: seq<Event>)
    requires |questions| > 0
    ensures Consistent(questions, Start)
    ensures RunAsWritten(questions, Start, events).current < |questions|
    ensures var r := RunAsWritten(questions, Start, events);
            !r.phase.Answering? ==>
              |r.answers| == |questions| && forall i :: 0 <= i < |questions| ==> r.answers[i].Some?
  {
  }

  /** From a fresh page, whatever the user does: the index stays on a
      question, submission only happens with every question answered, and the
      results screen shows the score that was submitted. */
  lemma ResultsShowSubmittedScore(questions: seq<Question>, events: seq<Event>)
    requires |questions| > 0
    ensures Reachable(questions, Start)
    ensures Run(questions, Start, events).current < |questions|
    ensures var r := Run(questions, Start, events);
            !r.phase.Answering? ==>
              |r.answers| == |questions| && forall i :: 0 <= i < |questions| ==> r.answers[i].Some?
    ensures var r := Run(questions, Start, events);
            r.phase.ShowingResults? ==> Score(questions, r.answers) == r.phase.submitted
  {
  }

  /** Choosing the given options in turn, pressing Next after each but the last. */
  function Play(options: seq<int>): (r: seq<Event>)
    ensures |options| > 0 ==> |r| == 2 * |options| - 1
  {
    if |options| == 0 then []
    else if |options| == 1 then [Select(options[0])]
    else [Select(options[0]), PressNext] + Play(options[1..])
  }

  /** The answers recorded by choosing the given options in turn. */
  function Given(options: seq<int>): (r: Answers)
    ensures |r| == |options|
    ensures forall j :: 0 <= j < |options| ==> r[j] == Some(options[j])
  {
    seq(|options|, j requires 0 <= j < |options| => Some(options[j]))
  }

  /** Answering 1, 2, 2, 1, 2 and pressing Next after each of the first four. */
  const KeyPlay: seq<Event> :=
    [Select(1), PressNext, Select(2), PressNext, Select(2), PressNext, Select(1), PressNext, Select(2)]

  lemma KeyPlayIsPlay()
    ensures KeyPlay == Play([1, 2, 2, 1, 2])
  {
    assert [1, 2, 2, 1, 2][1..] == [2, 2, 1, 2];
    assert [2, 2, 1, 2][1..] == [2, 1, 2];
    assert [2, 1, 2][1..] == [1, 2];
    assert [1, 2][1..] == [2];
  }

  /** One event of an as-written run. */
  lemma RunAsWrittenUnfold(questions: seq<Question>, s: Session, events: seq<Event>)
    requires Consistent(questions, s) && |events| > 0
    ensures Consistent(questions, StepAsWritten(questions, s, events[0]))
    ensures RunAsWritten(questions, s, events)
            == RunAsWritten(questions, StepAsWritten(questions, s, events[0]), events[1..])
  {
    StepAsWrittenKeepsConsistent(questions, s, events[0]);
  }

  /** Running two event lists in turn is running them joined. */
  lemma {:induction false} RunAsWrittenConcat(questions: seq<Question>, s: Session, a: seq<Event>, b: seq<Event>)
    requires Consistent(questions, s)
    ensures RunAsWritten(questions, s, a + b) == RunAsWritten(questions, RunAsWritten(questions, s, a), b)
    decreases |a|
  {
    if |a| > 0 {
      RunAsWrittenUnfold(questions, s, a + b);
      RunAsWrittenUnfold(questions, s, a);
      assert (a + b)[0] == a[0] && (a + b)[1..] == a[1..] + b;
      RunAsWrittenConcat(questions, StepAsWritten(questions, s, a[0]), a[1..], b);
    } else {
      assert a + b == b;
    }
  }

  /** On a five-question quiz, answering question `i` with every earlier one
      answered records the option, and Next moves on when a later question
      exists. */
  lemma AnswerThenNext(questions: seq<Question>, answers: Answers, option: int)
    requires |questions| == 5 && |answers| < 5
    requires forall j :: 0 <= j < |answers| ==> answers[j].Some?
    ensures Consistent(questions, Session(|answers|, answers, Answering))
    ensures var next := Session(|answers|, answers + [Some(option)], Answering);
            && RunAsWritten(questions, Session(|answers|, answers, Answering), [Select(option)]) == next
            && (|answers| < 4 ==>
                  RunAsWritten(questions, Session(|answers|, answers, Answering), [Select(option), PressNext])
                  == next.(current := |answers| + 1))
  {
    var s := Session(|answers|, answers, Answering);
    forall j: nat | j < |answers| ensures AnswerAt(answers, j).Some? {
      assert answers[j].Some?;
    }
    var next := Session(|answers|, answers + [Some(option)], Answering);
    assert StepAsWritten(questions, s, Select(option)) == next by {
      assert answers + seq(0, _ => None) == answers;
    }
    RunAsWrittenUnfold(questions, s, [Select(option)]);
    assert [Select(option)][1..] == [];
    if |answers| < 4 {
      RunAsWrittenUnfold(questions, s, [Select(option), PressNext]);
      assert [Select(option), PressNext][1..] == [PressNext];
      assert AnswerAt(next.answers, next.current).Some?;
      RunAsWrittenUnfold(questions, next, [PressNext]);
      assert [PressNext][1..] == [];
    }
  }

  /** On a five-question quiz, a page with the first questions answered and
      the rest answered in turn by a play ends on the last question with
      every answer given. */
  lemma {:induction false} PlayAnswersAll(questions: seq<Question>, done: Answers, options: seq<int>)
    requires |questions| == 5 && |options| > 0 && |done| + |options| == 5
    requires forall j :: 0 <= j < |done| ==> done[j].Some?
    ensures Consistent(questions, Session(|done|, done, Answering))
    ensures RunAsWritten(questions, Session(|done|, done, Answering), Play(options))
            == Session(4, done + Given(options), Answering)
    decreases |options|
  {
    var s := Session(|done|, done, Answering);
    var done' := done + [Some(options[0])];
    AnswerThenNext(questions, done, options[0]);
    if |options| == 1 {
      assert Play(options) == [Select(options[0])];
      assert done + Given(options) == done';
    } else {
      var rest := Play(options[1..]);
      assert Play(options) == [Select(options[0]), PressNext] + rest;
      RunAsWrittenConcat(questions, s, [Select(options[0]), PressNext], rest);
      assert forall j :: 0 <= j < |done'| ==> done'[j].Some?;
      PlayAnswersAll(questions, done', options[1..]);
      assert done' + Given(options[1..]) == done + Given(options);
    }
  }

  /** On any five-question quiz, the key play leads a fresh as-written page
      to the last question with all five answers given. */
  lemma KeyPlayReachesLastQuestion(questions: seq<Question>)
    requires |questions| == 5
    ensures Consistent(questions, Start)
    ensures RunAsWritten(questions, Start, KeyPlay)
            == Session(4, [Some(1), Some(2), Some(2), Some(1), Some(2)], Answering)
  {
    KeyPlayIsPlay();
    GivenKey();
    PlayAnswersAll(questions, [], [1, 2, 2, 1, 2]);
  }

  lemma GivenKey()
    ensures [] + Given([1, 2, 2, 1, 2]) == [Some(1), Some(2), Some(2), Some(1), Some(2)]
  {
  }

  /** Scored against a quiz whose answer key is 1, 2, 2, 1, 2, the key itself
      scores 5 and the key with the last answer switched to option 0 scores 4. */
  lemma KeyAndSwitchedScores(quiz: Quiz)
    requires CorrectAnswers(quiz) == [1, 2, 2, 1, 2]
    ensures |quiz.questions| == 5
    ensures Score(quiz.questions, [Some(1), Some(2), Some(2), Some(1), Some(2)]) == 5
    ensures Score(quiz.questions, [Some(1), Some(2), Some(2), Some(1), Some(0)]) == 4
  {
    var questions := quiz.questions;
    var key: Answers := [Some(1), Some(2), Some(2), Some(1), Some(2)];
    var switched: Answers := [Some(1), Some(2), Some(2), Some(1), Some(0)];
    assert forall i :: 0 <= i < 5 ==> questions[i].correctAnswer == CorrectAnswers(quiz)[i];
    assert ReduceScore(questions, key, 0, 0) == ReduceScore(questions, key, 5, 5);
    assert ReduceScore(questions, switched, 0, 0) == ReduceScore(questions, switched, 5, 4);
  }

  /** On the last of five answered questions, as written: Next submits the
      score of the answers, a click on option 0 while the insert is in flight
      overwrites the last answer, and the settled insert shows the submitted
      score beside the overwritten answers. */
  lemma SwitchWhileSubmitting(questions: seq<Question>, answers: Answers)
    requires |questions| == 5 && |answers| == 5
    requires forall j :: 0 <= j < 5 ==> answers[j].Some?
    ensures var s1 := StepAsWritten(questions, Session(4, answers, Answering), PressNext);
            var s2 := StepAsWritten(questions, s1, Select(0));
            var s3 := StepAsWritten(questions, s2, InsertSettled);
            s1.phase == Submitting(Score(questions, answers))
            && s3.phase == ShowingResults(Score(questions, answers))
            && s3.answers == answers[4 := Some(0)]
  {
  }

  /** From the last question with the key 1, 2, 2, 1, 2 answered, as written:
      Next submits 5, and option 0 clicked while the insert is in flight
      leaves answers that score 4 on the results screen. */
  lemma SwitchedKeyShowsOtherScore(quiz: Quiz, answered: Session)
    requires CorrectAnswers(quiz) == [1, 2, 2, 1, 2]
    requires answered == Session(4, [Some(1), Some(2), Some(2), Some(1), Some(2)], Answering)
    ensures |quiz.questions| == 5
    ensures var questions := quiz.questions;
            var s1 := StepAsWritten(questions, answered, PressNext);
            var s2 := StepAsWritten(questions, s1, Select(0));
            var s3 := StepAsWritten(questions, s2, InsertSettled);
            s1.phase == Submitting(5) && s3.phase == ShowingResults(5)
            && Score(questions, s3.answers) == 4
  {
    KeyAndSwitchedScores(quiz);
    SwitchWhileSubmitting(quiz.questions, answered.answers);
    assert answered.answers[4 := Some(0)] == [Some(1), Some(2), Some(2), Some(1), Some(0)];
  }

  /** With the as-written selection, the answer can change while the insert
      is in flight: a fresh page of a quiz whose answer key is 1, 2, 2, 1, 2
      (the general-knowledge quiz, by `QuizData.GeneralKnowledgeAnswerKey`)
      answered with its key submits 5, and switching the last answer to
      option 0 before the insert settles shows 4 on the results screen. */
  lemma AsWrittenShowsOtherScore(quiz: Quiz)
    requires CorrectAnswers(quiz) == [1, 2, 2, 1, 2]
    ensures |quiz.questions| == 5
    ensures var questions := quiz.questions;
            var answered := RunAsWritten(questions, Start, KeyPlay);
            var s1 := StepAsWritten(questions, answered, PressNext);
            var s2 := StepAsWritten(questions, s1, Select(0));
            var s3 := StepAsWritten(questions, s2, InsertSettled);
            s1.phase == Submitting(5) && s3.phase == ShowingResults(5)
            && Score(questions, s3.answers) == 4
  {
    KeyAndSwitchedScores(quiz);
    KeyPlayReachesLastQuestion(quiz.questions);
    SwitchedKeyShowsOtherScore(quiz, RunAsWritten(quiz.questions, Start, KeyPlay));
  }

  /** What the insert reported: success, an error object, or a thrown exception. */
  datatype InsertOutcome = Inserted | InsertError | InsertThrew

  /** The row `handleSubmitQuiz` inserts into `quiz_results`. */
  datatype ResultRecord = ResultRecord(userId: string, userName: string, quizId: string, quizTag: string, score: int)

  /** The submission as `handleSubmitQuiz` performs it: the user id is read
      (and created if absent), one record is built from the quiz and the
      captured score, and the completion flag is set only when the insert
      succeeded. */
  function Submit(quiz: Quiz, userName: string, score: int, store: Storage.Store,
                  freshId: string, outcome: InsertOutcome): (r: (ResultRecord, Storage.Store))
    requires freshId != ""
    ensures r.0.userName == userName && r.0.quizId == quiz.id && r.0.quizTag == quiz.tag
    ensures r.0.score == score
    ensures r.0.userId != ""
    ensures Storage.Get(r.1, Storage.UserIdKey) == Some(r.0.userId)
    ensures outcome == Inserted ==> Storage.IsQuizCompleted(r.1, quiz.id)
    ensures outcome != Inserted ==>
              Storage.IsQuizCompleted(r.1, quiz.id) == Storage.IsQuizCompleted(store, quiz.id)
    ensures outcome != Inserted ==> r.1 == Storage.GetUserId(store, freshId).1
    ensures outcome == Inserted ==> r.1 == Storage.MarkQuizCompleted(Storage.GetUserId(store, freshId).1, quiz.id)
    ensures forall k :: k != Storage.UserIdKey && k != Storage.CompletedKey(quiz.id) ==>
              Storage.Get(r.1, k) == Storage.Get(store, k)
  {
    var (userId, idStore) := Storage.GetUserId(store, freshId);
    var record := ResultRecord(userId, userName, quiz.id, quiz.tag, score);
    Storage.CompletedKeyIsNotIdentity(quiz.id);
    if outcome == Inserted then (record, Storage.MarkQuizCompleted(idStore, quiz.id))
    else (record, idStore)
  }

  /** The quiz page for an id: `quizData[quizId]`, or the not-found card. */
  function OpenQuiz(quizId: string): (r: Option<Quiz>)
    ensures r.Some? <==> quizId in Catalog
    ensures r.Some? ==> r.value == Catalog[quizId]
    ensures r.Some? ==> r.value.id == quizId && |r.value.questions| == 5
  {
    CatalogIsWellFormed();
    if quizId in Catalog then Some(Catalog[quizId]) else None
  }
}

=== FILE: scoring.dfy ===
/** Scoring of one quiz attempt (src/pages/Quiz.tsx): the `reduce` that counts
    correct answers, the per-question marks of the results list, and the
    percentage grade band. */
module Scoring {
  import opened Wrappers
  import opened QuizData

  /** The sparse `selectedAnswers` array: `None` is a hole (never selected). */
  type Answers = seq<Option<int>>

  /** Reading slot `i` of a sparse array: `undefined` past its end. */
  function AnswerAt(answers: Answers, i: nat): Option<int> {
    if i < |answers| then answers[i] else None
  }

  /** `userAnswer === question.correctAnswer`: an absent answer never matches. */
  predicate IsCorrect(q: Question, answer: Option<int>) {
    answer == Some(q.correctAnswer)
  }

  /** The `reduce` callback applied from index `i` on, with accumulator `acc`;
      holes are skipped, as `Array.prototype.reduce` skips them. Indexing
      `questions` past its end would throw, hence the first requires. */
  function ReduceScore(questions: seq<Question>, answers: Answers, i: nat, acc: int): (r: int)
    requires |answers| <= |questions|
    requires i <= |answers|
    ensures acc <= r <= acc + (|answers| - i)
    decreases |answers| - i
  {
    if i == |answers| then acc
    else match answers[i]
      case None => ReduceScore(questions, answers, i + 1, acc)
      case Some(a) =>
        ReduceScore(questions, answers, i + 1,
          acc + (if a == questions[i].correctAnswer then 1 else 0))
  }

  /** The score: the same reduce computes the submitted score and the score
      shown on the results screen. */
  function Score(questions: seq<Question>, answers: Answers): (r: int)
    requires |answers| <= |questions|
    ensures 0 <= r <= |answers| <= |questions|
  {
    ReduceScore(questions, answers, 0, 0)
  }

  /** The check / cross icon of each row of the results list, one per question. */
  function ResultMarks(questions: seq<Question>, answers: Answers): (r: seq<bool>)
    ensures |r| == |questions|
    ensures forall i :: 0 <= i < |questions| ==> r[i] == IsCorrect(questions[i], AnswerAt(answers, i))
  {
    seq(|questions|, i requires 0 <= i < |questions| => IsCorrect(questions[i], AnswerAt(answers, i)))
  }

  /** Number of `true` marks, counted from the back. */
  function CountTrue(marks: seq<bool>): nat {
    if |marks| == 0 then 0
    else CountTrue(marks[..|marks| - 1]) + (if marks[|marks| - 1] then 1 else 0)
  }

  /** The positions answered with the correct option. */
  function CorrectPositions(questions: seq<Question>, answers: Answers): set<nat>
    requires |answers| <= |questions|
  {
    set i: nat | i < |answers| && IsCorrect(questions[i], answers[i])
  }

  /** The reduce from `i` adds the marks of positions `i..|answers|`. */
  lemma {:induction false} ReduceAddsMarks(questions: seq<Question>, answers: Answers, i: nat, acc: int)
    requires |answers| <= |questions|
    requires i <= |answers|
    ensures ReduceScore(questions, answers, i, acc)
            == acc + CountTrue(ResultMarks(questions, answers)[..|answers|])
                   - CountTrue(ResultMarks(questions, answers)[..i])
    decreases |answers| - i
  {
    var marks := ResultMarks(questions, answers);
    if i < |answers| {
      assert marks[..i + 1][..i] == marks[..i];
      var step := if answers[i] == Some(questions[i].correctAnswer) then 1 else 0;
      assert CountTrue(marks[..i + 1]) == CountTrue(marks[..i]) + step;
      ReduceAddsMarks(questions, answers, i + 1, acc + step);
    }
  }

  /** Marks past the answered prefix are all false, so they add nothing. */
  lemma {:induction false} UnansweredAddNothing(questions: seq<Question>, answers: Answers, k: nat)
    requires |answers| <= k <= |questions|
    ensures CountTrue(ResultMarks(questions, answers)[..k])
            == CountTrue(ResultMarks(questions, answers)[..|answers|])
    decreases k
  {
    var marks := ResultMarks(questions, answers);
    if k > |answers| {
      assert marks[..k][..k - 1] == marks[..k - 1];
      assert !marks[k - 1];
      UnansweredAddNothing(questions, answers, k - 1);
    }
  }

  /** The count of true marks is the size of the set of their positions. */
  lemma {:induction false} CountTrueIsCardinality(marks: seq<bool>)
    ensures CountTrue(marks) == |set i: nat | i < |marks| && marks[i]|
  {
    if |marks| > 0 {
      var n := |marks| - 1;
      var prefix := marks[..n];
      CountTrueIsCardinality(prefix);
      var before := set i: nat | i < |prefix| && prefix[i];
      var after := set i: nat | i < |marks| && marks[i];
      if marks[n] {
        assert after == before + {n};
      } else {
        assert after == before;
      }
    }
  }

  /** The number of questions the results list marks correct is the score:
      the reduce over the answers and the map over the questions agree. */
  lemma MarkedCorrectEqualsScore(questions: seq<Question>, answers: Answers)
    requires |answers| <= |questions|
    ensures CountTrue(ResultMarks(questions, answers)) == Score(questions, answers)
  {
    var marks := ResultMarks(questions, answers);
    ReduceAddsMarks(questions, answers, 0, 0);
    UnansweredAddNothing(questions, answers, |questions|);
    assert marks[..|questions|] == marks;
    assert marks[..0] == [];
  }

  /** The score is the number of positions whose answer equals the correct
      index; unanswered positions are not among them. */
  lemma ScoreCountsCorrectPositions(questions: seq<Question>, answers: Answers)
    requires |answers| <= |questions|
    ensures Score(questions, answers) == |CorrectPositions(questions, answers)|
    ensures forall i :: i in CorrectPositions(questions, answers) ==> answers[i].Some?
  {
    var marks := ResultMarks(questions, answers);
    var prefix := marks[..|answers|];
    ReduceAddsMarks(questions, answers, 0, 0);
    assert marks[..0] == [];
    CountTrueIsCardinality(prefix);
    assert (set i: nat | i < |prefix| && prefix[i]) == CorrectPositions(questions, answers);
  }

  /** When every question is valid, a counted answer is one of the options:
      an out-of-range index is never counted. */
  lemma CountedAnswersAreOptions(questions: seq<Question>, answers: Answers, i: nat)
    requires |answers| <= |questions|
    requires forall k :: 0 <= k < |questions| ==> ValidQuestion(questions[k])
    requires i in CorrectPositions(questions, answers)
    ensures answers[i].Some? && 0 <= answers[i].value < |questions[i].options|
  {
  }

  /** Grade band colour of the results badge. */
  datatype Band = Green | Yellow | Red

  /** `(score / total) * 100`, in exact arithmetic. */
  function Percentage(score: int, total: nat): real
    requires total > 0
  {
    (score as real / total as real) * 100.0
  }

  /** Comparing with a threshold is unchanged by a positive factor. */
  lemma ThresholdScales(p: real, t: real, c: real)
    requires t > 0.0
    ensures p >= c <==> p * t >= c * t
  {
    if p >= c {
      assert p * t - c * t == (p - c) * t;
    } else {
      assert c * t - p * t == (c - p) * t;
    }
  }

  /** A percentage reaches `c` exactly when `100 * score` reaches `c * total`. */
  lemma PercentageThreshold(score: int, total: nat, c: int)
    requires total > 0
    ensures Percentage(score, total) >= c as real <==> 100 * score >= c * total
  {
    var t := total as real;
    var q := score as real / t;
    var p := Percentage(score, total);
    assert q * t == score as real;
    assert p * t == (100 * score) as real by {
      assert p == q * 100.0;
      assert p * t == (q * t) * 100.0;
    }
    assert (c * total) as real == c as real * t;
    ThresholdScales(p, t, c as real);
  }

  /** The badge colour: at least 80 percent green, at least 60 yellow, else red. */
  function GradeBand(score: int, total: nat): (b: Band)
    requires total > 0
    ensures b == Green <==> 100 * score >= 80 * total
    ensures b == Yellow <==> 60 * total <= 100 * score < 80 * total
    ensures b == Red <==> 100 * score < 60 * total
  {
    var p := Percentage(score, total);
    PercentageThreshold(score, total, 80);
    PercentageThreshold(score, total, 60);
    if p >= 80.0 then Green else if p >= 60.0 then Yellow else Red
  }

  /** Order of the bands, worst first. */
  function BandRank(b: Band): nat {
    match b
    case Red => 0
    case Yellow => 1
    case Green => 2
  }

  /** A higher score never gets a worse band. */
  lemma GradeBandMonotone(s1: int, s2: int, total: nat)
    requires total > 0
    requires s1 <= s2
    ensures BandRank(GradeBand(s1, total)) <= BandRank(GradeBand(s2, total))
  {
  }

  /** The general-knowledge quiz answered with its key scores 5 of 5, green;
      answered with option 0 everywhere it scores 0, red. */
  lemma GeneralKnowledgeScenario()
    ensures "general-knowledge" in Catalog
    ensures Score(Catalog["general-knowledge"].questions, [Some(1), Some(2), Some(2), Some(1), Some(2)]) == 5
    ensures GradeBand(5, 5) == Green
    ensures Score(Catalog["general-knowledge"].questions, [Some(0), Some(0), Some(0), Some(0), Some(0)]) == 0
    ensures GradeBand(0, 5) == Red
  {
    var qs := Catalog["general-knowledge"].questions;
    var key: Answers := [Some(1), Some(2), Some(2), Some(1), Some(2)];
    var zeros: Answers := [Some(0), Some(0), Some(0), Some(0), Some(0)];
    assert ReduceScore(qs, key, 5, 5) == 5;
    assert ReduceScore(qs, key, 0, 0) == ReduceScore(qs, key, 5, 5);
    assert ReduceScore(qs, zeros, 0, 0) == ReduceScore(qs, zeros, 5, 0);
  }
}

=== FILE: storage.dfy ===
/** The per-browser identity and completion store (src/lib/storage.ts), with
    `localStorage` modelled as a map from key to stored string. */
module Storage {
  import opened Wrappers

  type Store = map<string, string>

  const UserIdKey: string := "quiz_user_id"
  const UserNameKey: string := "quiz_user_name"
  const CompletedPrefix: string := "quiz_completed_"

  /** The key of one quiz's completion flag. */
  function CompletedKey(quizId: string): string {
    CompletedPrefix + quizId
  }

  /** `localStorage.getItem`: `None` stands for `null`. */
  function Get(store: Store, key: string): Option<string> {
    if key in store then Some(store[key]) else None
  }

  /** The store agrees with `other` on every key except `key`. */
  ghost predicate SameExcept(store: Store, other: Store, key: string) {
    forall k :: k != key ==> Get(store, k) == Get(other, k)
  }

  /** `getUserId`: the stored id if it is non-empty (truthy), otherwise
      `freshId` (the value `crypto.randomUUID` would return), stored first. */
  function GetUserId(store: Store, freshId: string): (r: (string, Store))
    requires freshId != ""
    ensures r.0 != ""
    ensures Get(r.1, UserIdKey) == Some(r.0)
    ensures SameExcept(r.1, store, UserIdKey)
    ensures Get(store, UserIdKey).Some? && store[UserIdKey] != "" ==> r.1 == store
    ensures r.0 != freshId ==> Get(store, UserIdKey) == Some(r.0)
  {
    match Get(store, UserIdKey)
    case Some(id) =>
      if id != "" then (id, store) else (freshId, store[UserIdKey := freshId])
    case None => (freshId, store[UserIdKey := freshId])
  }

  /** `getUserName`: the stored name, or `null` before one is stored. */
  function GetUserName(store: Store): (r: Option<string>)
    ensures r.Some? <==> UserNameKey in store
    ensures r.Some? ==> r.value == store[UserNameKey]
  {
    Get(store, UserNameKey)
  }

  /** `setUserName`: the name reads back, and no other key changes. */
  function SetUserName(store: Store, name: string): (r: Store)
    ensures GetUserName(r) == Some(name)
    ensures SameExcept(r, store, UserNameKey)
  {
    store[UserNameKey := name]
  }

  /** `isQuizCompleted`: only the exact string "true" counts. */
  function IsQuizCompleted(store: Store, quizId: string): (r: bool)
    ensures r <==> CompletedKey(quizId) in store && store[CompletedKey(quizId)] == "true"
  {
    Get(store, CompletedKey(quizId)) == Some("true")
  }

  /** `markQuizCompleted`: the quiz reads as completed, and only its flag
      changes. */
  function MarkQuizCompleted(store: Store, quizId: string): (r: Store)
    ensures IsQuizCompleted(r, quizId)
    ensures SameExcept(r, store, CompletedKey(quizId))
    ensures GetUserName(r) == GetUserName(store)
  {
    CompletedKeyIsNotIdentity(quizId);
    store[CompletedKey(quizId) := "true"]
  }

  /** A completion key is neither the id key nor the name key. */
  lemma CompletedKeyIsNotIdentity(quizId: string)
    ensures CompletedKey(quizId) != UserIdKey
    ensures CompletedKey(quizId) != UserNameKey
  {
    assert CompletedKey(quizId)[5] == 'c';
    assert UserIdKey[5] == 'u' && UserNameKey[5] == 'u';
  }

  /** Different quizzes have different completion keys. */
  lemma CompletedKeyInjective(a: string, b: string)
    requires a != b
    ensures CompletedKey(a) != CompletedKey(b)
  {
    assert CompletedKey(a)[|CompletedPrefix|..] == a;
    assert CompletedKey(b)[|CompletedPrefix|..] == b;
  }

  /** A second `getUserId` returns the id the first one returned and leaves
      the store alone, whatever fresh id it is offered. */
  lemma {:induction false} GetUserIdIsStable(store: Store, fresh1: string, fresh2: string)
    requires fresh1 != "" && fresh2 != ""
    ensures GetUserId(GetUserId(store, fresh1).1, fresh2) == GetUserId(store, fresh1)
  {
  }

  /** Reading the name back after storing it returns it. */
  lemma NameRoundTrip(store: Store, name: string)
    ensures GetUserName(SetUserName(store, name)) == Some(name)
    ensures SameExcept(SetUserName(store, name), store, UserNameKey)
  {
  }

  /** After marking a quiz completed it reads as completed. */
  lemma MarkThenCompleted(store: Store, quizId: string)
    ensures IsQuizCompleted(MarkQuizCompleted(store, quizId), quizId)
  {
  }

  /** A flag reads as completed exactly when the stored string is "true";
      "True", "1" or the empty string do not count. */
  lemma CompletedOnlyForTrue(store: Store, quizId: string, stored: string)
    ensures IsQuizCompleted(store[CompletedKey(quizId) := stored], quizId) <==> stored == "true"
  {
  }

  /** Marking one quiz changes no other quiz's flag, nor the name or the id. */
  lemma MarkChangesOnlyItsFlag(store: Store, quizId: string, other: string)
    requires other != quizId
    ensures IsQuizCompleted(MarkQuizCompleted(store, quizId), other) == IsQuizCompleted(store, other)
    ensures GetUserName(MarkQuizCompleted(store, quizId)) == GetUserName(store)
    ensures Get(MarkQuizCompleted(store, quizId), UserIdKey) == Get(store, UserIdKey)
  {
    CompletedKeyInjective(quizId, other);
    CompletedKeyIsNotIdentity(quizId);
  }

  /** Storing the name changes no completion flag and not the id. */
  lemma SetNameKeepsFlags(store: Store, name: string, quizId: string)
    ensures IsQuizCompleted(SetUserName(store, name), quizId) == IsQuizCompleted(store, quizId)
    ensures Get(SetUserName(store, name), UserIdKey) == Get(store, UserIdKey)
  {
    CompletedKeyIsNotIdentity(quizId);
  }
}

=== FILE: wrappers.dfy ===
/** Option and Result values shared by the quiz model: `Option` stands for the
    source's `undefined`/`null`, `Result` for an operation that reports an error. */
module Wrappers {

  /** `None` is JavaScript's `undefined` (or `null` for storage reads). */
  datatype Option<+T> = None | Some(value: T)

  /** A successful value or an error shown to the user. */
  datatype Result<+R, +E> = Ok(value: R) | Err(error: E)
}
